=== FILE: README.md ===
# tsstringmap in Dafny

A model of `StringMap<K,V>` and `StringSet<T>`, two TypeScript containers
whose keys (or elements) are arbitrary objects identified by their string
form `toString()`. Each container keeps:

- a plain JavaScript object `_data` from string identity to the stored entry;
- a `_size` counter, maintained incrementally rather than recounted;
- lazily built views (`keys`/`values`/`entries` for the map, `values`/`entries`
  for the set). Every mutation drops them.

The model has four modules:

- `ObjectStore` (`object_store.dfy`) models the backing object as
  `Dict(data, order)`. `data` is a `map<string, E>`; `order` is the `for ... in`
  enumeration order. It also holds the loops shared by both classes:
  - the counting overwrite loop (`Overlay`, used by the constructors,
    `StringMap.concat` and `StringSet.union`);
  - the first-wins loop (`Underlay`, used by `StringSet.concat`);
  - the selecting loop (`Select`, used by `filter`, `intersection` and
    `complement`);
  - the transforming loop (`Transform`, used by `map`);
  - the copying loop (`Copy`).

  `Overlay` and `Underlay` are proved equal to the right-biased and
  left-biased map unions (`LastWinsUnion`, `FirstWinsUnion`) by `OverlayAll`
  and `UnderlayAll`. `Select`, `Transform` and `Copy` are specified name by
  name.

  Two reference orders state the enumeration order of the objects these loops
  build:
  - `Appended(base, names)` is the order of an object enumerated as `base`
    after the names `names` are written into it in turn. `AppendedExtends`
    proves that it lists `base`, then every name of `names` missing from
    `base`, each once, in the order of its first occurrence (`Extends`).
  - `Restrict(s, a)` is `s` with the names outside `a` dropped, in the order
    of `s`.
- `Traversal` (`traversal.dfy`) holds the early-exit loops of `every`, `some`
  and `findKey`, and the left fold of `reduce`.
- `StringMaps` (`string_map.dfy`) and `StringSets` (`string_set.dfy`) hold one
  function per method of each class.

The identity function `key.toString()` is a parameter `id: K -> string`. A
mutating method becomes a function from the old container to the new one; it
returns a pair when the method also returns a value (`delete`, the view
getters). `has` is the predicate `Has`. `Valid` is the representation invariant:

- the object is well formed;
- the counter equals the number of live identities;
- every present cache equals the view derived from the store.

`_size` is an unbounded `int`. The counter can drift from the true count, and
the model tracks how much. Every loop that adjusts a counter preserves that
drift. This is how the model states both halves of the behaviour:

- valid inputs give valid results;
- an invalid receiver's error is carried into `concat`/`union`.

In these places the model follows the code rather than its evident intent:

- `filter` overwrites the receiver's counter (see Findings).
- `StringSet.concat` keeps the FIRST element with an identity. `StringMap.concat`
  and `StringSet.union` keep the last.
- `clear()` tests the counter (`this.size > 0`), not the store.
- `StringSet.map` keeps each result under the OLD identity, so `has` of a mapped
  element can be false.

## Model

| member | source | states |
|---|---|---|
| `StringMaps.New` | src/StringMap.ts:1-6 | a fresh map is valid, empty, has counter 0 and no cached view |
| `StringMaps.FromPairs` | src/StringMap.ts:8-22 | the constructed map is valid, so its counter is the number of distinct identities among the input keys; its identities are exactly those of the input keys; the last pair with an identity supplies its entry; it enumerates the identities in the order of their first occurrence among the input keys (`Appended` from the empty order) |
| `StringMaps.ConstructorLastWins` | src/StringMap.ts:12-19 | for keys a and b with different identities, [[a,1],[b,2],[a,3]] gives size 2, get(a) = 3 and get(b) = 2 |
| `StringMaps.ConstructorKeys` | src/StringMap.ts:12-19 | the same construction holds exactly the two identities of a and b |
| `StringMaps.KeyWitness` | src/StringMap.ts:12-19 | every identity in a constructed map is the identity of some input key |
| `StringMaps.ClearCache` | src/StringMap.ts:24-28 | all three views are dropped and store and counter are untouched, so a map whose counter is right is valid afterwards |
| `StringMaps.Set` | src/StringMap.ts:30-39 | afterwards the key is present with the new value; every other identity reads as before; the counter grows by one exactly when the identity was absent; all caches are dropped; validity is preserved |
| `StringMaps.SetExistingInPlace` | src/StringMap.ts:30-39 | setting a key whose identity is present keeps the enumeration order and changes only that entry's slot of the keys, values and entries views |
| `StringMaps.SetTwice` | src/StringMap.ts:30-39 | setting the same key and value twice equals setting it once |
| `StringMaps.Get` | src/StringMap.ts:41-45 | returns a value exactly when `has` holds, and then it is the value stored under the key's identity |
| `StringMaps.Has` | src/StringMap.ts:67-69 | on a well-formed store a key is present exactly when its identity is among the names `for ... in` enumerates |
| `StringMaps.Clear` | src/StringMap.ts:47-53 | with a positive counter the store empties, the counter resets and the caches go; otherwise nothing changes; a valid map stays valid and ends empty |
| `StringMaps.Delete` | src/StringMap.ts:55-65 | returns true exactly when the identity was present; then the key is absent, the counter is one lower, the caches are gone and every other identity reads as before; on false the map is unchanged; validity is preserved |
| `StringMaps.DeleteUndoesSet` | src/StringMap.ts:30-65 | setting an absent key and then deleting it returns true and restores store, enumeration order and counter, with the caches dropped |
| `StringMaps.Keys` | src/StringMap.ts:71-82 | returns the cached array when present; when the cache is absent, returns the keys in enumeration order, freshly built; the cache afterwards holds what was returned; on a map with fresh caches the result is the keys in enumeration order; validity is preserved |
| `StringMaps.KeysView` | src/StringMap.ts:71-82 | the keys view has one element per entry, and element i is the key of entry i |
| `StringMaps.KeysIsCached` | src/StringMap.ts:71-82 | a second `keys()` returns the same array and leaves the map as the first left it |
| `StringMaps.Values` | src/StringMap.ts:84-95 | as `keys()`, for the values |
| `StringMaps.ValuesView` | src/StringMap.ts:84-95 | the values view has one element per entry, and element i is the value of entry i |
| `StringMaps.Entries` | src/StringMap.ts:97-108 | as `keys()`, for the entries |
| `StringMaps.EntriesView` | src/StringMap.ts:97-108 | the entries view has one element per entry, and element i is the entry stored under the i-th enumerated name |
| `StringMaps.ViewsHaveSize` | src/StringMap.ts:71-120 | on a valid map the three views all have `size` elements |
| `StringMaps.KeysAreNeverStale` | src/StringMap.ts:30-82 | set "A", read keys, delete "A", set "B": the keys read last are ["B"], not the stale ["A"] |
| `StringMaps.Size` | src/StringMap.ts:118-120 | on a valid map the getter returns the number of live identities |
| `StringMaps.Apply` | src/StringMap.ts:24-108 | each of set, delete, clear, clearCache, keys, values and entries keeps a map valid |
| `StringMaps.RunKeepsValid` | src/StringMap.ts:24-108 | any sequence of those operations keeps a map valid |
| `StringMaps.ReduceCountsSize` | src/StringMap.ts:122-130 | reducing with a callback that adds one gives the number of live identities, which is `size` on a valid map |
| `StringMaps.ReduceAfterSetNew` | src/StringMap.ts:122-130 | after setting a new key, reduce applies the callback to the old result and the new entry, last |
| `StringMaps.Reduce` | src/StringMap.ts:122-130 | an empty map reduces to the initial value; otherwise the callback is first applied to the initial value and the first entry in enumeration order, and the rest of the entries are folded into that |
| `StringMaps.Map` | src/StringMap.ts:132-142 | the result has the receiver's identities in the same enumeration order, with each key kept and its value replaced by callback(value, key); its counter is the receiver's; a valid receiver gives a valid result |
| `StringMaps.MapGet` | src/StringMap.ts:132-142 | `has` is unchanged by mapping, and `get` on the result is the callback applied to the original value and key |
| `StringMaps.Kept` | src/StringMap.ts:148-154 | the copied object holds exactly the entries the callback accepts, unchanged, enumerated in the receiver's order, and the loop's count is their number |
| `StringMaps.Filter` | src/StringMap.ts:144-157 | as written: the new map holds exactly the accepted entries, in the receiver's enumeration order, with counter 0 and no cache; the receiver keeps its store and caches but its counter becomes the number of accepted entries |
| `StringMaps.FilterResultMiscounts` | src/StringMap.ts:144-157 | a non-empty filter result is never valid |
| `StringMaps.FilterReceiverMiscounts` | src/StringMap.ts:155 | a valid receiver stays valid after filter exactly when the callback accepted every entry |
| `StringMaps.FilterThenClearKeepsEntries` | src/StringMap.ts:47-53 | after a filter that rejects every entry, `clear()` leaves the receiver's entries in place, because its guard reads the overwritten counter |
| `StringMaps.KeptAll` | src/StringMap.ts:148-155 | the loop's count equals the number of entries exactly when every entry is accepted |
| `StringMaps.FilterCounterexample` | src/StringMap.ts:144-157 | filtering the valid map {"a": 1, "b": 2} by v > 1 gives a map holding "b" whose size is 0, and leaves the receiver with size 1 and two entries |
| `StringMaps.FilterIntendedKeepsAll` | src/StringMap.ts:144-157 | a corrected filter whose callback accepts every entry copies the store exactly, enumeration order included |
| `StringMaps.FilterIntended` | src/StringMap.ts:144-157 | corrected filter: the result holds exactly the accepted entries, in the receiver's enumeration order, and is valid, so its size is their number |
| `StringMaps.Every` | src/StringMap.ts:159-168 | true exactly when the callback accepts every entry |
| `StringMaps.Any` | src/StringMap.ts:170-179 | true exactly when the callback accepts some entry |
| `StringMaps.EntryPositions` | src/StringMap.ts:159-179 | the traversal visits exactly the live entries |
| `StringMaps.AnyIsNotEveryNot` | src/StringMap.ts:159-179 | `some(p)` is `!every(!p)` |
| `StringMaps.FindKey` | src/StringMap.ts:181-189 | absent exactly when no entry has the value; otherwise the key of an entry with that value, and no earlier entry in enumeration order has it |
| `StringMaps.Concat` | src/StringMap.ts:191-212 | the result's entries are the right-biased union of the receiver's and each argument's in turn; it enumerates the receiver's identities and then each new identity in the order the arguments first list it; its counter is off by exactly the receiver's error, so a valid receiver gives a valid result; no cache |
| `StringMaps.ConcatHas` | src/StringMap.ts:191-212 | a key is in the result exactly when the receiver or some argument has its identity |
| `StringMaps.ConcatLastWins` | src/StringMap.ts:200-209 | an identity's entry comes from the last argument that has it |
| `StringMaps.ConcatTwice` | src/StringMap.ts:191-212 | concat(a) then concat(b) equals concat(a, b), entries and counter |
| `StringSets.New` | src/StringSet.ts:1-5 | a fresh set is valid, empty, has counter 0 and no cached view |
| `StringSets.FromValues` | src/StringSet.ts:7-21 | the constructed set is valid (counter = number of distinct identities); its identities are exactly those of the inputs; the last input with an identity is the stored element; it enumerates the identities in the order of their first occurrence among the inputs |
| `StringSets.ClearCache` | src/StringSet.ts:23-26 | both views are dropped and store and counter are untouched |
| `StringSets.Add` | src/StringSet.ts:28-37 | afterwards the value is present and stored under its identity; every other identity reads as before; the counter grows by one exactly when the identity was absent; the caches are dropped; validity is preserved |
| `StringSets.Has` | src/StringSet.ts:60-62 | on a well-formed store an element is present exactly when its identity is among the names `for ... in` enumerates |
| `StringSets.AddTwice` | src/StringSet.ts:28-37 | adding the same value twice equals adding it once |
| `StringSets.Clear` | src/StringSet.ts:39-45 | with a positive counter the store empties, the counter resets and the caches go; otherwise nothing changes |
| `StringSets.Delete` | src/StringSet.ts:47-58 | returns true exactly when the identity was present; then it is absent, the counter is one lower, the caches are gone and every other identity reads as before; on false nothing changes |
| `StringSets.DeleteUndoesAdd` | src/StringSet.ts:28-58 | adding an absent value and then deleting it returns true and restores store, order and counter, with the caches dropped |
| `StringSets.Values` | src/StringSet.ts:64-74 | returns the cached array when present; when the cache is absent, returns the elements in enumeration order, freshly built; the cache afterwards holds what was returned; with fresh caches it is the elements in enumeration order; validity is preserved |
| `StringSets.ValuesView` | src/StringSet.ts:64-74 | the values view has one element per element of the set, and element i is the one stored under the i-th enumerated name |
| `StringSets.ValuesIsCached` | src/StringSet.ts:64-74 | a second `values()` returns the same array and changes nothing |
| `StringSets.Entries` | src/StringSet.ts:76-87 | as `values()`, for the entries |
| `StringSets.EntriesView` | src/StringSet.ts:76-87 | entry i is element i paired with itself |
| `StringSets.ViewsHaveSize` | src/StringSet.ts:64-99 | on a valid set both views have `size` elements |
| `StringSets.Size` | src/StringSet.ts:97-99 | on a valid set the getter returns the number of live identities |
| `StringSets.Apply` | src/StringSet.ts:23-87 | each of add, delete, clear, clearCache, values and entries keeps a set valid |
| `StringSets.RunKeepsValid` | src/StringSet.ts:23-87 | any sequence of those operations keeps a set valid |
| `StringSets.ReduceCountsSize` | src/StringSet.ts:101-109 | reducing with a callback that adds one gives the number of live identities, which is `size` on a valid set |
| `StringSets.ReduceAfterAddNew` | src/StringSet.ts:101-109 | after adding a new element, reduce applies the callback to the old result and the new element, last |
| `StringSets.Reduce` | src/StringSet.ts:101-109 | an empty set reduces to the initial value; otherwise the callback is first applied to the initial value and the first element (as value and key), and the rest of the elements are folded into that |
| `StringSets.Map` | src/StringSet.ts:111-121 | the result has the receiver's identities in the same order; under each one sits callback(v, v) for the element v stored there; its counter is the receiver's |
| `StringSets.MapCanOrphanValues` | src/StringSet.ts:111-121 | mapping {a} to b, where b's identity differs from a's, gives a set whose only element is b but which does not `has` b |
| `StringSets.Kept` | src/StringSet.ts:127-134 | the copied object holds exactly the elements the callback accepts, enumerated in the receiver's order, and the count is their number |
| `StringSets.Filter` | src/StringSet.ts:123-137 | as written: the new set holds exactly the accepted elements, in the receiver's enumeration order, with counter 0; the receiver's counter becomes the number accepted |
| `StringSets.FilterResultMiscounts` | src/StringSet.ts:123-137 | a non-empty filter result is never valid |
| `StringSets.FilterReceiverMiscounts` | src/StringSet.ts:135 | a valid receiver stays valid after filter exactly when every element was accepted |
| `StringSets.FilterCounterexample` | src/StringSet.ts:123-137 | filtering the valid set {1, 2} by v > 1 gives a set holding 2 whose size is 0, and leaves the receiver with size 1 and two elements |
| `StringSets.FilterIntended` | src/StringSet.ts:123-137 | corrected filter: the result holds exactly the accepted elements, in the receiver's enumeration order, and is valid |
| `StringSets.Every` | src/StringSet.ts:139-148 | true exactly when the callback accepts every element |
| `StringSets.Any` | src/StringSet.ts:150-159 | true exactly when the callback accepts some element |
| `StringSets.ValuePositions` | src/StringSet.ts:139-159 | the traversal visits exactly the live elements |
| `StringSets.Concat` | src/StringSet.ts:161-180 | the result is the left-biased union: the receiver's elements, then each argument's elements whose identity is still missing, enumerated in that order (receiver first, then each new identity where the arguments first list it); the counter is off by exactly the receiver's error |
| `StringSets.ConcatHas` | src/StringSet.ts:161-180 | a value is in the result exactly when the receiver or some argument has its identity |
| `StringSets.ConcatTwice` | src/StringSet.ts:161-180 | concat(a) then concat(b) equals concat(a, b) |
| `StringSets.ConcatKeepsFirstUnionKeepsLast` | src/StringSet.ts:172-220 | for two elements a, b with the same identity, {a}.concat({b}) keeps a while {a}.union({b}) keeps b |
| `StringSets.Common` | src/StringSet.ts:186-200 | the selected object holds exactly the receiver's identities that every argument has, with the receiver's elements, in the receiver's enumeration order, counted |
| `StringSets.Intersection` | src/StringSet.ts:182-203 | the result is valid and holds exactly the receiver's identities that every argument has (all of them when there is no argument), with the receiver's elements, in the receiver's enumeration order |
| `StringSets.Union` | src/StringSet.ts:205-225 | the result is the right-biased union of the receiver and each argument in turn; it enumerates the receiver's identities and then each new identity in the order the arguments first list it; the counter is off by exactly the receiver's error |
| `StringSets.UnionHas` | src/StringSet.ts:205-225 | a value is in the union exactly when the receiver or some argument has its identity |
| `StringSets.UnionTwice` | src/StringSet.ts:205-225 | union(a) then union(b) equals union(a, b) |
| `StringSets.Unshared` | src/StringSet.ts:231-246 | the selected object holds exactly the receiver's identities that no argument has, in the receiver's enumeration order, counted |
| `StringSets.Complement` | src/StringSet.ts:227-249 | the result is valid and holds exactly the receiver's identities that no argument has, with the receiver's elements, in the receiver's enumeration order |
| `StringSets.IntersectionComplementSplit` | src/StringSet.ts:182-249 | intersection and complement against one set split the receiver: each element is in exactly one, and in the intersection exactly when both sets have it |
| `StringSets.IntersectionComplementKeys` | src/StringSet.ts:182-249 | the two results' identities are disjoint and together are the receiver's |
| `StringSets.IntersectionComplementSizes` | src/StringSet.ts:182-249 | on a valid set the two results' sizes add up to its size |
| `ObjectStore.Assign` | src/StringMap.ts:36 | writing a property updates it; an existing property keeps its place in the enumeration and a new one is appended |
| `ObjectStore.HasOwn` | src/StringMap.ts:67-69 | `hasOwnProperty` on a well-formed object holds exactly for the names its enumeration lists |
| `ObjectStore.Lookup` | src/StringMap.ts:41-45 | reading `obj[sk]` gives a value exactly when the property is own, and then it is the stored one; otherwise `undefined` |
| `ObjectStore.Pairs` | src/StringMap.ts:125-128 | the `for ... in` traversal visits one pair per enumerated name, in order, each with the value stored under that name |
| `ObjectStore.Remove` | src/StringMap.ts:58 | deleting a property drops it and its place; the remaining names keep their relative enumeration order (the order is the old one with that one name cut out); deleting a missing one changes nothing; a present one lowers the count by one |
| `ObjectStore.Without` | src/StringMap.ts:58 | the enumeration after `delete` lists the old names except the deleted one, each still once; a name it never listed leaves it unchanged |
| `ObjectStore.RemoveUndoesAssign` | src/StringMap.ts:36-58 | deleting a property that was just added restores the object exactly |
| `ObjectStore.Overlay` | src/StringMap.ts:12-19 | the counting overwrite loop preserves the counter's distance from the true count, and the names are the old ones plus those of the pairs |
| `ObjectStore.Put` | src/StringMap.ts:14-18 | one step of the counting loop (the same step as the set constructor's) writes the property, keeps the counter's distance from the true count, and appends the name to the enumeration exactly when it was not listed yet |
| `ObjectStore.OverlayOrder` | src/StringMap.ts:12-19 | the overwrite loop enumerates the old names and then each new name of the pairs in the order of its first pair (`Appended`) |
| `ObjectStore.OverlayLastWins` | src/StringMap.ts:200-209 | after the overwrite loop, the last pair for a name supplies its value |
| `ObjectStore.OverlayKeepsUnnamed` | src/StringMap.ts:200-209 | after the overwrite loop, a name no pair mentions keeps its value |
| `ObjectStore.OverlayIsUnion` | src/StringSet.ts:213-222 | overwriting with an object's properties in enumeration order is the right-biased map union |
| `ObjectStore.Underlay` | src/StringSet.ts:169-177 | the first-wins loop preserves the counter's distance from the true count, and the names are the old ones plus those of the pairs |
| `ObjectStore.UnderlayOrder` | src/StringSet.ts:169-177 | the first-wins loop enumerates the old names and then each new name of the pairs in the order of its first pair |
| `ObjectStore.UnderlayKeepsExisting` | src/StringSet.ts:169-177 | after the first-wins loop, an existing property keeps its value |
| `ObjectStore.UnderlayFirstWins` | src/StringSet.ts:169-177 | after the first-wins loop, a new name takes the value of its first pair |
| `ObjectStore.UnderlayIsUnion` | src/StringSet.ts:169-177 | writing only the missing properties of an object is the left-biased map union |
| `ObjectStore.OverlayAll` | src/StringMap.ts:199-210 | the overwrite loop over several objects gives their right-biased union and preserves the counter's error |
| `ObjectStore.UnderlayAll` | src/StringSet.ts:168-178 | the first-wins loop over several objects gives their left-biased union and preserves the counter's error |
| `ObjectStore.OverlayAllOrder` | src/StringMap.ts:199-210 | the overwrite loop over several objects enumerates the base names, then each new name in the order the objects' enumerations first list it |
| `ObjectStore.UnderlayAllOrder` | src/StringSet.ts:168-178 | the first-wins loop over several objects enumerates the base names, then each new name in the order the objects' enumerations first list it |
| `ObjectStore.AppendedExtends` | src/StringMap.ts:14-18 | writing names in turn into an object enumerates its old names first, then every new name once, ordered by its first write |
| `ObjectStore.AppendedTwice` | src/StringMap.ts:199-210 | writing one list of names and then another gives the same enumeration as writing their concatenation |
| `ObjectStore.ExtendsTrans` | src/StringMap.ts:199-210 | extending an enumeration by one list of names and then by another extends it by their concatenation |
| `ObjectStore.UnionKeys` | src/StringSet.ts:161-225 | both unions hold exactly the names of the base and of the argument objects |
| `ObjectStore.LastWinsUnionValue` | src/StringSet.ts:213-222 | in the right-biased union a name's value comes from the last object that has it |
| `ObjectStore.FirstWinsUnionValue` | src/StringSet.ts:169-177 | in the left-biased union a name missing from the base takes its value from the first object that has it |
| `ObjectStore.FirstWinsUnionKeeps` | src/StringSet.ts:169-177 | in the left-biased union a name of the base keeps its value |
| `ObjectStore.Copy` | src/StringMap.ts:195-198 | copying an object property by property reproduces it, enumeration order included |
| `ObjectStore.Select` | src/StringMap.ts:148-154 | the selecting loop keeps exactly the accepted properties with their values, and its count is their number |
| `ObjectStore.SelectOrder` | src/StringMap.ts:148-154 | the selecting loop enumerates the kept names in the order the source enumerates them (`Restrict`) |
| `ObjectStore.Restrict` | src/StringMap.ts:148-154 | the restricted enumeration lists exactly the names of the source enumeration that are kept |
| `ObjectStore.RestrictAll` | src/StringMap.ts:148-155 | keeping every name keeps the whole enumeration |
| `ObjectStore.SelectKeys` | src/StringSet.ts:186-200 | the selecting loop over the whole object keeps exactly the accepted names |
| `ObjectStore.AcceptedAll` | src/StringMap.ts:148-155 | the accepted names are as many as the properties exactly when all are accepted |
| `ObjectStore.Transform` | src/StringMap.ts:136-139 | the transforming loop keeps the names and their order and replaces each value by the callback's result |
| `ObjectStore.InAllMeans` | src/StringSet.ts:188-195 | the early-exit inner loop of intersection answers "every argument has the name" |
| `ObjectStore.InSomeMeans` | src/StringSet.ts:233-240 | the early-exit inner loop of complement answers "some argument has the name" |
| `ObjectStore.CountIsLength` | src/StringMap.ts:101-107 | the enumeration of an object lists each property once, so it has as many elements as there are properties |
| `ObjectStore.IdsOfPairs` | src/StringMap.ts:201-202 | the names visited by `for ... in` are exactly the object's properties |
| `Traversal.FoldCounts` | src/StringMap.ts:122-130 | a fold whose callback adds one per element yields the number of elements |
| `Traversal.Fold` | src/StringMap.ts:122-130 | the accumulating loop starts from the initial value, and folds the first visited element in first and the rest after it |
| `Traversal.FoldSnoc` | src/StringMap.ts:122-130 | one more visited element applies the callback once more to the accumulated value |
| `Traversal.Every` | src/StringMap.ts:159-168 | the loop that stops at the first rejected element returns true exactly when every element is accepted |
| `Traversal.Any` | src/StringMap.ts:170-179 | the loop that stops at the first accepted element returns true exactly when some element is accepted |
| `Traversal.FindFirst` | src/StringMap.ts:181-189 | the search returns the first accepted position, or nothing exactly when no element is accepted |

## Left out

- `forEach` (both classes): its callback returns nothing, so for a pure
  callback it has no observable effect. The traversal order it would expose is
  the one `reduce` is proved against.
- Callbacks are pure total functions. The `thisArg` receiver, the container
  passed as the last callback argument, and callbacks that throw or mutate the
  container during traversal are not modelled.
- The string form `toString()` is the parameter `id`. How particular types
  compute it is not modelled.
- JavaScript enumerates integer-like property names (such as "2" or "10")
  first, in ascending numeric order, before the others. The model enumerates
  every name in insertion order.
- Properties inherited through the prototype chain, and names such as
  `__proto__` or `hasOwnProperty` that collide with `Object.prototype`, are not
  modelled. Only own properties exist.
- The view getters return the cached array itself, so a caller that mutates
  it corrupts the cache. The model's sequences are values and cannot alias.
- `_size` is a JavaScript number. Precision loss above 2^53 is not modelled;
  the counter is an unbounded integer.
- StringSets.Reduce, StringSets.Map: the source redeclares the type parameter
  `T` on these two methods, shadowing the element type. The model gives the
  accumulator of `reduce` its own type, and gives the callback of `map` the
  element type as both argument and result.
- StringMaps.FindKey: compares values with Dafny equality. JavaScript's `===`
  differs on `NaN` (never equal to itself) and on `-0`/`+0`.
- An omitted constructor argument (`undefined`) is modelled as the empty
  sequence, which gives the same result.
- `WellFormed` is required of every store: the enumeration lists each property
  exactly once. It holds of every JavaScript object, so it constrains only the
  model's representation, not the callers.

## Findings

| source | as written | input that shows it | evidently intended | confidence | as-written member | corrected member |
|---|---|---|---|---|---|---|
| src/StringMap.ts:155 | `this._size = size` stores the number of accepted entries into the receiver; the new map's counter stays 0 | filter {"a": 1, "b": 2} by v > 1: the result holds "b" but has size 0; the receiver has 2 entries but size 1 | `result._size = size` | high; not executed | `StringMaps.Filter` (shown by `StringMaps.FilterCounterexample`) | `StringMaps.FilterIntendedKeepsAll` | src/StringMap.ts:144-157 | a corrected filter whose callback accepts every entry copies the store exactly, enumeration order included |
| `StringMaps.FilterIntended` |
| src/StringSet.ts:135 | `this._size = size` stores the number of accepted elements into the receiver; the new set's counter stays 0 | filter {1, 2} by v > 1: the result holds 2 but has size 0; the receiver has 2 elements but size 1 | `result._size = size` | high; not executed | `StringSets.Filter` (shown by `StringSets.FilterCounterexample`) | `StringSets.FilterIntended` |

=== FILE: object_store.dfy ===
/** A plain JavaScript object used as a dictionary, `{ [key: string]: E }`,
    which is the backing store of both StringMap and StringSet.

    Only own, string-named properties are modelled. Enumeration with
    `for ... in` visits the properties in insertion order: assigning to an
    existing property keeps its place, assigning a new one appends it, and a
    deleted property that is assigned again goes to the end. */
module ObjectStore {
  import opened Wrappers

  /** `data` holds the properties, `order` the enumeration order. */
  datatype Dict<E> = Dict(data: map<string, E>, order: seq<string>)

  /** The set of elements of a sequence of property names. */
  function Elems(s: seq<string>): set<string>
  {
    set x | x in s
  }

  ghost predicate Distinct(s: seq<string>)
  {
    forall i, j :: 0 <= i < j < |s| ==> s[i] != s[j]
  }

  /** The enumeration order lists every property exactly once. */
  ghost predicate WellFormed<E>(d: Dict<E>)
  {
    Distinct(d.order) && Elems(d.order) == d.data.Keys
  }

  lemma {:induction false} DistinctLength(s: seq<string>)
    requires Distinct(s)
    ensures |Elems(s)| == |s|
  {
    if s != [] {
      var p := s[..|s| - 1];
      assert Distinct(p);
      DistinctLength(p);
      assert Elems(s) == Elems(p) + {s[|s| - 1]};
      assert s[|s| - 1] !in Elems(p);
    }
  }

  /** The number of properties equals the length of the enumeration. */
  lemma CountIsLength<E>(d: Dict<E>)
    requires WellFormed(d)
    ensures |d.data| == |d.order|
  {
    DistinctLength(d.order);
    assert |d.data| == |d.data.Keys|;
  }

  /** The empty object literal `{}`. */
  function Empty<E>(): (d: Dict<E>)
    ensures WellFormed(d)
    ensures |d.data| == 0
  {
    Dict(map[], [])
  }

  /** `obj.hasOwnProperty(sk)`. */
  predicate HasOwn<E>(d: Dict<E>, sk: string)
    ensures WellFormed(d) ==> (HasOwn(d, sk) <==> sk in d.order)
  {
    sk in d.data
  }

  /** `obj[sk]`, with `undefined` as None. */
  function Lookup<E>(d: Dict<E>, sk: string): (r: Option<E>)
    ensures r.Some? <==> HasOwn(d, sk)
    ensures r.Some? ==> r.value == d.data[sk]
  {
    if sk in d.data then Some(d.data[sk]) else None
  }

  /** `obj[sk] = e`: an existing property keeps its place in the
      enumeration, a new one is enumerated last. */
  function Assign<E>(d: Dict<E>, sk: string, e: E): (r: Dict<E>)
    ensures r.data == d.data[sk := e]
    ensures WellFormed(d) ==> WellFormed(r)
    ensures HasOwn(d, sk) ==> r.order == d.order
    ensures !HasOwn(d, sk) ==> r.order == d.order + [sk]
  {
    if sk in d.data then
      Dict(d.data[sk := e], d.order)
    else
      var r := Dict(d.data[sk := e], d.order + [sk]);
      assert WellFormed(d) ==> Elems(r.order) == Elems(d.order) + {sk};
      r
  }

  lemma ElemsSnoc(s: seq<string>, x: string)
    ensures Elems(s + [x]) == Elems(s) + {x}
  {
    assert forall y :: y in s + [x] <==> y in s || y == x;
  }

  /** The sequence `s` with every occurrence of `x` dropped. */
  function Without(s: seq<string>, x: string): (r: seq<string>)
    ensures Elems(r) == Elems(s) - {x}
    ensures Distinct(s) ==> Distinct(r)
    ensures x !in s ==> r == s
    ensures |r| <= |s|
  {
    if s == [] then []
    else
      var p := s[..|s| - 1];
      var last := s[|s| - 1];
      assert Elems(s) == Elems(p) + {last};
      assert Distinct(s) ==> Distinct(p) && last !in Elems(p);
      if last == x then Without(p, x)
      else
        var w := Without(p, x);
        ElemsSnoc(w, last);
        assert Distinct(s) ==> last !in Elems(w);
        w + [last]
  }

  /** Dropping the one occurrence of a name from a distinct enumeration
      closes the gap and keeps every other name in place. */
  lemma {:induction false} WithoutAt(s: seq<string>, x: string, i: int)
    requires Distinct(s) && 0 <= i < |s| && s[i] == x
    ensures Without(s, x) == s[..i] + s[i + 1..]
    decreases |s|
  {
    var p := s[..|s| - 1];
    if i == |s| - 1 {
      assert x !in p;
      assert s[..i] + s[i + 1..] == p;
    } else {
      assert Distinct(p) && p[i] == x;
      WithoutAt(p, x, i);
      assert s[..i] + s[i + 1..] == p[..i] + p[i + 1..] + [s[|s| - 1]];
    }
  }

  /** `delete obj[sk]`: the property and its place in the enumeration go;
      the remaining properties keep their relative order. */
  function Remove<E>(d: Dict<E>, sk: string): (r: Dict<E>)
    ensures r.data == d.data - {sk}
    ensures WellFormed(d) ==> WellFormed(r)
    ensures WellFormed(d) && !HasOwn(d, sk) ==> r == d
    ensures HasOwn(d, sk) ==> |r.data| == |d.data| - 1
    ensures WellFormed(d) && HasOwn(d, sk) ==> CutOut(d.order, sk, r.order)
  {
    var r := Dict(d.data - {sk}, Without(d.order, sk));
    RemoveFacts(d, sk, r);
    r
  }

  lemma RemoveFacts<E>(d: Dict<E>, sk: string, r: Dict<E>)
    requires r == Dict(d.data - {sk}, Without(d.order, sk))
    ensures WellFormed(d) ==> WellFormed(r)
    ensures WellFormed(d) && sk !in d.data ==> r == d
    ensures sk in d.data ==> |r.data| == |d.data| - 1
    ensures WellFormed(d) && sk in d.data ==> CutOut(d.order, sk, r.order)
  {
    assert r.data.Keys == d.data.Keys - {sk};
    if sk in d.data {
      assert |r.data.Keys| == |d.data.Keys| - 1;
      WithoutGap(d.order, sk);
    } else {
      assert r.data == d.data;
    }
  }

  /** `r` is `s` with its element `x` cut out and every other element
      left in its relative place. */
  ghost predicate CutOut(s: seq<string>, x: string, r: seq<string>)
  {
    exists i :: 0 <= i < |s| && s[i] == x && r == s[..i] + s[i + 1..]
  }

  lemma WithoutGap(s: seq<string>, x: string)
    ensures Distinct(s) && x in s ==> CutOut(s, x, Without(s, x))
  {
    if Distinct(s) && x in s {
      var i :| 0 <= i < |s| && s[i] == x;
      WithoutAt(s, x, i);
    }
  }

  /** Removing a property that was just added restores the object,
      enumeration order included. */
  lemma {:induction false} RemoveUndoesAssign<E>(d: Dict<E>, sk: string, e: E)
    requires WellFormed(d)
    requires !HasOwn(d, sk)
    ensures Remove(Assign(d, sk, e), sk) == d
  {
    var s := d.order + [sk];
    assert s[..|s| - 1] == d.order;
    assert sk !in d.order;
    assert Without(s, sk) == Without(d.order, sk);
    assert d.data[sk := e] - {sk} == d.data;
  }

  /** The `for (const sk in obj)` traversal: each property with its value,
      in enumeration order. */
  function Pairs<E>(d: Dict<E>): (ps: seq<(string, E)>)
    requires WellFormed(d)
    ensures |ps| == |d.order|
    ensures forall i :: 0 <= i < |ps| ==> ps[i] == (d.order[i], d.data[d.order[i]])
  {
    seq(|d.order|, i requires 0 <= i < |d.order| => (d.order[i], d.data[d.order[i]]))
  }

  /** The values of the object, in enumeration order. */
  function Vals<E>(d: Dict<E>): (vs: seq<E>)
    requires WellFormed(d)
    ensures |vs| == |d.order|
    ensures forall i :: 0 <= i < |vs| ==> vs[i] == d.data[d.order[i]]
  {
    seq(|d.order|, i requires 0 <= i < |d.order| => d.data[d.order[i]])
  }

  /** Writing a new property appends its value to the enumeration. */
  lemma ValsAssignNew<E>(d: Dict<E>, sk: string, e: E)
    requires WellFormed(d) && !HasOwn(d, sk)
    ensures Vals(Assign(d, sk, e)) == Vals(d) + [e]
  {
  }

  /** Overwriting a property changes only its own slot of the enumeration. */
  lemma ValsAssignExisting<E>(d: Dict<E>, sk: string, e: E, i: int)
    requires WellFormed(d) && 0 <= i < |d.order| && d.order[i] == sk
    ensures Vals(Assign(d, sk, e)) == Vals(d)[i := e]
  {
  }

  /** The property names of a sequence of (name, value) pairs. */
  function Ids<E>(ps: seq<(string, E)>): (r: set<string>)
    ensures forall i :: 0 <= i < |ps| ==> ps[i].0 in r
    decreases |ps|
  {
    if ps == [] then {} else Ids(ps[..|ps| - 1]) + {ps[|ps| - 1].0}
  }

  /** Every name in `Ids(ps)` is the name of some pair. */
  lemma {:induction false} IdsWitness<E>(ps: seq<(string, E)>, sk: string) returns (i: nat)
    requires sk in Ids(ps)
    ensures i < |ps| && ps[i].0 == sk
    decreases |ps|
  {
    if ps[|ps| - 1].0 == sk {
      i := |ps| - 1;
    } else {
      i := IdsWitness(ps[..|ps| - 1], sk);
    }
  }

  /** No later pair in `ps` names the same property as `ps[i]`. */
  ghost predicate LastFor<E>(ps: seq<(string, E)>, i: int)
    requires 0 <= i < |ps|
  {
    forall j :: i < j < |ps| ==> ps[j].0 != ps[i].0
  }

  /** No earlier pair in `ps` names the same property as `ps[i]`. */
  ghost predicate FirstFor<E>(ps: seq<(string, E)>, i: int)
    requires 0 <= i < |ps|
  {
    forall j :: 0 <= j < i ==> ps[j].0 != ps[i].0
  }

  /** One step of the counting overwrite loop: decrement when the property
      exists, write it, increment. */
  function Put<E>(acc: (Dict<E>, int), sk: string, e: E): (r: (Dict<E>, int))
    ensures WellFormed(acc.0) ==> WellFormed(r.0)
    ensures r.1 - |r.0.data| == acc.1 - |acc.0.data|
    ensures r.0.data == acc.0.data[sk := e]
    ensures WellFormed(acc.0) ==> r.0.order == if sk in acc.0.order then acc.0.order else acc.0.order + [sk]
  {
    var n := if HasOwn(acc.0, sk) then acc.1 - 1 else acc.1;
    (Assign(acc.0, sk, e), n + 1)
  }

  lemma LastForPrefix<E>(ps: seq<(string, E)>, i: int)
    requires 0 <= i < |ps| - 1 && LastFor(ps, i)
    ensures LastFor(ps[..|ps| - 1], i) && ps[..|ps| - 1][i] == ps[i] && ps[i].0 != ps[|ps| - 1].0
  {
  }

  lemma FirstForPrefix<E>(ps: seq<(string, E)>, i: int)
    requires 0 <= i < |ps| - 1 && FirstFor(ps, i)
    ensures FirstFor(ps[..|ps| - 1], i) && ps[..|ps| - 1][i] == ps[i]
  {
  }

  lemma FirstIsNew<E>(ps: seq<(string, E)>)
    requires ps != [] && FirstFor(ps, |ps| - 1)
    ensures ps[|ps| - 1].0 !in Ids(ps[..|ps| - 1])
  {
    var p := ps[..|ps| - 1];
    if ps[|ps| - 1].0 in Ids(p) {
      var j := IdsWitness(p, ps[|ps| - 1].0);
    }
  }

  /** The names of a sequence of pairs, in order. */
  function Names<E>(ps: seq<(string, E)>): (ns: seq<string>)
    ensures |ns| == |ps|
    ensures forall i :: 0 <= i < |ns| ==> ns[i] == ps[i].0
  {
    seq(|ps|, i requires 0 <= i < |ps| => ps[i].0)
  }

  lemma NamesSnoc<E>(ps: seq<(string, E)>)
    requires ps != []
    ensures Names(ps) == Names(ps[..|ps| - 1]) + [ps[|ps| - 1].0]
  {
  }

  /** The position of the first occurrence of `x` in `s`. */
  function FirstIndex(s: seq<string>, x: string): (i: nat)
    requires x in s
    ensures i < |s| && s[i] == x
    ensures forall j :: 0 <= j < i ==> s[j] != x
    decreases |s|
  {
    if s[0] == x then 0
    else
      var i := FirstIndex(s[1..], x);
      assert forall j :: 1 <= j <= i + 1 ==> s[j] == s[1..][j - 1];
      i + 1
  }

  /** A position of `x` with no earlier occurrence is its first one. */
  lemma FirstIndexIs(s: seq<string>, x: string, i: int)
    requires 0 <= i < |s| && s[i] == x
    requires forall j :: 0 <= j < i ==> s[j] != x
    ensures FirstIndex(s, x) == i
  {
  }

  /** Appending names after `x` does not move its first occurrence. */
  lemma FirstIndexAppend(s: seq<string>, t: seq<string>, x: string)
    requires x in s
    ensures x in s + t && FirstIndex(s + t, x) == FirstIndex(s, x)
  {
    var i := FirstIndex(s, x);
    assert (s + t)[i] == x;
    FirstIndexIs(s + t, x, i);
  }

  /** A name missing from `s` first occurs in `s + t` where it first occurs
      in `t`. */
  lemma FirstIndexAfter(s: seq<string>, t: seq<string>, x: string)
    requires x !in s && x in t
    ensures x in s + t && FirstIndex(s + t, x) == |s| + FirstIndex(t, x)
  {
    var i := FirstIndex(t, x);
    assert (s + t)[|s| + i] == x;
    forall j | 0 <= j < |s| + i ensures (s + t)[j] != x {
      if j < |s| {
        assert (s + t)[j] == s[j];
      } else {
        assert (s + t)[j] == t[j - |s|];
      }
    }
    FirstIndexIs(s + t, x, |s| + i);
  }

  /** `r` lists `base`, then each name of `names` that `base` lacks, once,
      in the order of the name's first occurrence in `names`. This is the
      enumeration of an object enumerated as `base` after the properties
      `names` are written into it in turn. */
  ghost predicate Extends(r: seq<string>, base: seq<string>, names: seq<string>)
  {
    && |base| <= |r| && r[..|base|] == base
    && (forall j :: 0 <= j < |names| ==> names[j] in r)
    && (forall p :: |base| <= p < |r| ==> r[p] in names && r[p] !in base)
    && (forall p, q :: |base| <= p < q < |r| ==> FirstIndex(names, r[p]) < FirstIndex(names, r[q]))
  }

  lemma ExtendsNothing(base: seq<string>)
    ensures Extends(base, base, [])
  {
    assert base[..|base|] == base;
  }

  /** Writing one property appends its name unless it is already listed. */
  lemma ExtendsOne(r: seq<string>, x: string)
    ensures Extends(if x in r then r else r + [x], r, [x])
  {
    if x !in r {
      assert (r + [x])[..|r|] == r;
      assert (r + [x])[|r|] == x;
    }
  }

  /** Writing `n1` and then `n2` is writing `n1 + n2`. */
  lemma {:induction false} ExtendsTrans(r1: seq<string>, r2: seq<string>, base: seq<string>, n1: seq<string>, n2: seq<string>)
    requires Extends(r1, base, n1) && Extends(r2, r1, n2)
    ensures Extends(r2, base, n1 + n2)
  {
    assert r2[..|base|] == r2[..|r1|][..|base|];
    PrefixElems(r2, r1);
    PrefixElems(r1, base);
    forall j | 0 <= j < |n1 + n2| ensures (n1 + n2)[j] in r2 {
      if j < |n1| {
        assert (n1 + n2)[j] == n1[j] && n1[j] in r1;
      } else {
        assert (n1 + n2)[j] == n2[j - |n1|];
      }
    }
    forall p | |base| <= p < |r2| ensures r2[p] in n1 + n2 && r2[p] !in base {
      if p < |r1| {
        assert r2[p] == r2[..|r1|][p] == r1[p];
      } else {
        assert r2[p] !in r1;
      }
    }
    forall p, q | |base| <= p < q < |r2|
      ensures FirstIndex(n1 + n2, r2[p]) < FirstIndex(n1 + n2, r2[q])
    {
      ExtendsRank(r1, r2, base, n1, n2, p);
      ExtendsRank(r1, r2, base, n1, n2, q);
    }
  }

  /** Where a listed name of `r2` first occurs in `n1 + n2`: at its place in
      `n1` when `r1` already lists it, otherwise after all of `n1`. */
  lemma ExtendsRank(r1: seq<string>, r2: seq<string>, base: seq<string>, n1: seq<string>, n2: seq<string>, p: int)
    requires Extends(r1, base, n1) && Extends(r2, r1, n2)
    requires |base| <= p < |r2|
    ensures r2[p] in n1 + n2
    ensures p < |r1| ==> r2[p] == r1[p] && r1[p] in n1 && FirstIndex(n1 + n2, r2[p]) == FirstIndex(n1, r1[p])
    ensures |r1| <= p ==> r2[p] !in n1 && r2[p] in n2 && FirstIndex(n1 + n2, r2[p]) == |n1| + FirstIndex(n2, r2[p])
  {
    if p < |r1| {
      assert r2[p] == r2[..|r1|][p];
      FirstIndexAppend(n1, n2, r2[p]);
    } else {
      NamesListed(n1, r1);
      assert r2[p] !in r1;
      FirstIndexAfter(n1, n2, r2[p]);
    }
  }

  lemma PrefixElems(r: seq<string>, base: seq<string>)
    requires |base| <= |r| && r[..|base|] == base
    ensures forall x :: x in base ==> x in r
  {
    forall x | x in base ensures x in r {
      var i :| 0 <= i < |base| && base[i] == x;
      assert r[i] == r[..|base|][i];
    }
  }

  lemma NamesListed(names: seq<string>, r: seq<string>)
    requires forall j :: 0 <= j < |names| ==> names[j] in r
    ensures forall x :: x in names ==> x in r
  {
    forall x | x in names ensures x in r {
      var j :| 0 <= j < |names| && names[j] == x;
    }
  }

  /** One more written name extends the enumeration as `Extends` says. */
  lemma ExtendsSnoc(r: seq<string>, base: seq<string>, names: seq<string>, x: string)
    ensures Extends(r, base, names) ==> Extends(if x in r then r else r + [x], base, names + [x])
  {
    if Extends(r, base, names) {
      ExtendsOne(r, x);
      ExtendsTrans(r, if x in r then r else r + [x], base, names, [x]);
    }
  }

  /** The enumeration of an object enumerated as `base` after the
      properties `names` are written into it in turn: a name not listed yet
      is appended, a listed one keeps its place. `AppendedExtends` states
      what this order is. */
  function Appended(base: seq<string>, names: seq<string>): seq<string>
    decreases |names|
  {
    if names == [] then base
    else
      var acc := Appended(base, names[..|names| - 1]);
      var x := names[|names| - 1];
      if x in acc then acc else acc + [x]
  }

  /** `Appended` lists `base`, then each new name once, in the order of its
      first occurrence in `names`. */
  lemma {:induction false} AppendedExtends(base: seq<string>, names: seq<string>)
    ensures Extends(Appended(base, names), base, names)
    decreases |names|
  {
    if names == [] {
      ExtendsNothing(base);
    } else {
      var p, x := names[..|names| - 1], names[|names| - 1];
      var acc := Appended(base, p);
      assert p + [x] == names;
      assert Appended(base, names) == if x in acc then acc else acc + [x];
      AppendedExtends(base, p);
      ExtendsSnoc(acc, base, p, x);
    }
  }

  /** Writing `n1` and then `n2` is writing `n1 + n2`. */
  lemma {:induction false} AppendedTwice(base: seq<string>, n1: seq<string>, n2: seq<string>)
    ensures Appended(Appended(base, n1), n2) == Appended(base, n1 + n2)
    decreases |n2|
  {
    if n2 == [] {
      assert n1 + n2 == n1;
    } else {
      var p := n2[..|n2| - 1];
      AppendedTwice(base, n1, p);
      assert (n1 + n2)[..|n1 + n2| - 1] == n1 + p;
      assert (n1 + n2)[|n1 + n2| - 1] == n2[|n2| - 1];
    }
  }

  /** The elements of `s` that are in `a`, in the order of `s`. */
  function Restrict(s: seq<string>, a: set<string>): (r: seq<string>)
    ensures forall x :: x in r <==> x in s && x in a
    decreases |s|
  {
    if s == [] then []
    else
      var p := s[..|s| - 1];
      assert forall x :: x in s <==> x in p || x == s[|s| - 1];
      Restrict(p, a) + (if s[|s| - 1] in a then [s[|s| - 1]] else [])
  }

  /** Only the members of `a` that occur in `s` matter to `Restrict`. */
  lemma {:induction false} RestrictSame(s: seq<string>, a: set<string>, b: set<string>)
    requires forall x :: x in s ==> (x in a <==> x in b)
    ensures Restrict(s, a) == Restrict(s, b)
    decreases |s|
  {
    if s != [] {
      RestrictSame(s[..|s| - 1], a, b);
    }
  }

  /** Keeping every element of `s` keeps `s`. */
  lemma {:induction false} RestrictAll(s: seq<string>, a: set<string>)
    requires forall i :: 0 <= i < |s| ==> s[i] in a
    ensures Restrict(s, a) == s
    decreases |s|
  {
    if s != [] {
      var p := s[..|s| - 1];
      assert forall i :: 0 <= i < |p| ==> p[i] == s[i];
      RestrictAll(p, a);
      assert s == p + [s[|s| - 1]];
    }
  }


  /** The counting overwrite loop of the constructors, StringMap.concat and
      StringSet.union: for each pair, the counter is decremented when the
      property already exists, the property is (over)written, and the
      counter is incremented. The counter's distance from the true number of
      properties is therefore preserved. */
  function Overlay<E>(d: Dict<E>, size: int, ps: seq<(string, E)>): (r: (Dict<E>, int))
    ensures WellFormed(d) ==> WellFormed(r.0)
    ensures r.1 - |r.0.data| == size - |d.data|
    ensures r.0.data.Keys == d.data.Keys + Ids(ps)
    decreases |ps|
  {
    if ps == [] then (d, size)
    else
      Put(Overlay(d, size, ps[..|ps| - 1]), ps[|ps| - 1].0, ps[|ps| - 1].1)
  }

  /** The overwrite loop leaves the existing names in place and appends the
      new ones in the order of their first pair. */
  lemma {:induction false} OverlayOrder<E>(d: Dict<E>, size: int, ps: seq<(string, E)>)
    requires WellFormed(d)
    ensures Overlay(d, size, ps).0.order == Appended(d.order, Names(ps))
    decreases |ps|
  {
    if ps != [] {
      var p := ps[..|ps| - 1];
      OverlayOrder(d, size, p);
      NamesSnoc(ps);
      assert Names(ps)[..|ps| - 1] == Names(p);
    }
  }

  /** After the overwrite loop a property that no pair names keeps its value. */
  lemma {:induction false} OverlayKeepsUnnamed<E>(d: Dict<E>, size: int, ps: seq<(string, E)>)
    ensures forall sk :: sk in d.data && sk !in Ids(ps) ==> Overlay(d, size, ps).0.data[sk] == d.data[sk]
    decreases |ps|
  {
    if ps != [] {
      var p := ps[..|ps| - 1];
      var last := ps[|ps| - 1];
      OverlayKeepsUnnamed(d, size, p);
      var acc := Overlay(d, size, p);
      var r := Overlay(d, size, ps);
      assert r.0.data == acc.0.data[last.0 := last.1];
      forall sk | sk in d.data && sk !in Ids(ps)
        ensures r.0.data[sk] == d.data[sk]
      {
        assert sk !in Ids(p) && sk != last.0;
      }
    }
  }

  /** After the overwrite loop the last pair for a name wins. */
  lemma {:induction false} OverlayLastWins<E>(d: Dict<E>, size: int, ps: seq<(string, E)>)
    ensures forall i :: 0 <= i < |ps| && LastFor(ps, i) ==> Overlay(d, size, ps).0.data[ps[i].0] == ps[i].1
    decreases |ps|
  {
    if ps != [] {
      var p := ps[..|ps| - 1];
      var last := ps[|ps| - 1];
      OverlayLastWins(d, size, p);
      var acc := Overlay(d, size, p);
      var r := Overlay(d, size, ps);
      assert r.0.data == acc.0.data[last.0 := last.1];
      forall i | 0 <= i < |ps| && LastFor(ps, i)
        ensures r.0.data[ps[i].0] == ps[i].1
      {
        if i < |p| {
          LastForPrefix(ps, i);
          assert acc.0.data[p[i].0] == p[i].1;
        } else {
          assert i == |ps| - 1;
          assert ps[i] == last;
        }
      }
    }
  }

  /** The first-wins loop of StringSet.concat: a pair is written, and the
      counter incremented, only when its property does not exist yet. */
  function Underlay<E>(d: Dict<E>, size: int, ps: seq<(string, E)>): (r: (Dict<E>, int))
    ensures WellFormed(d) ==> WellFormed(r.0)
    ensures r.1 - |r.0.data| == size - |d.data|
    ensures r.0.data.Keys == d.data.Keys + Ids(ps)
    decreases |ps|
  {
    if ps == [] then (d, size)
    else
      var acc := Underlay(d, size, ps[..|ps| - 1]);
      if HasOwn(acc.0, ps[|ps| - 1].0) then acc else Put(acc, ps[|ps| - 1].0, ps[|ps| - 1].1)
  }

  /** The first-wins loop orders the names as the overwrite loop does:
      existing names stay in place, new ones follow in the order of their
      first pair. */
  lemma {:induction false} UnderlayOrder<E>(d: Dict<E>, size: int, ps: seq<(string, E)>)
    requires WellFormed(d)
    ensures Underlay(d, size, ps).0.order == Appended(d.order, Names(ps))
    decreases |ps|
  {
    if ps != [] {
      var p := ps[..|ps| - 1];
      UnderlayOrder(d, size, p);
      NamesSnoc(ps);
      assert Names(ps)[..|ps| - 1] == Names(p);
    }
  }

  /** After the first-wins loop an existing property keeps its value. */
  lemma {:induction false} UnderlayKeepsExisting<E>(d: Dict<E>, size: int, ps: seq<(string, E)>)
    ensures forall sk :: sk in d.data ==> Underlay(d, size, ps).0.data[sk] == d.data[sk]
    decreases |ps|
  {
    if ps != [] {
      var p := ps[..|ps| - 1];
      var last := ps[|ps| - 1];
      UnderlayKeepsExisting(d, size, p);
      var acc := Underlay(d, size, p);
      var r := Underlay(d, size, ps);
      assert r.0.data == if last.0 in acc.0.data then acc.0.data else acc.0.data[last.0 := last.1];
      forall sk | sk in d.data
        ensures r.0.data[sk] == d.data[sk]
      {
        assert sk in acc.0.data;
      }
    }
  }

  /** After the first-wins loop a new name takes the value of its first pair. */
  lemma {:induction false} UnderlayFirstWins<E>(d: Dict<E>, size: int, ps: seq<(string, E)>)
    ensures forall i :: 0 <= i < |ps| && FirstFor(ps, i) && ps[i].0 !in d.data ==>
      Underlay(d, size, ps).0.data[ps[i].0] == ps[i].1
    decreases |ps|
  {
    if ps != [] {
      var p := ps[..|ps| - 1];
      var last := ps[|ps| - 1];
      UnderlayFirstWins(d, size, p);
      var acc := Underlay(d, size, p);
      var r := Underlay(d, size, ps);
      assert r.0.data == if last.0 in acc.0.data then acc.0.data else acc.0.data[last.0 := last.1];
      forall i | 0 <= i < |ps| && FirstFor(ps, i) && ps[i].0 !in d.data
        ensures r.0.data[ps[i].0] == ps[i].1
      {
        if i < |p| {
          FirstForPrefix(ps, i);
          assert acc.0.data[p[i].0] == p[i].1;
          assert ps[i].0 != last.0 || last.0 in acc.0.data;
        } else {
          assert i == |ps| - 1;
          FirstIsNew(ps);
          assert ps[i] == last;
          assert last.0 !in acc.0.data;
        }
      }
    }
  }

  /** Map extensionality for a right-biased union. */
  lemma IsUnion<E>(r: map<string, E>, a: map<string, E>, b: map<string, E>)
    requires r.Keys == a.Keys + b.Keys
    requires forall k :: k in b ==> r[k] == b[k]
    requires forall k :: k in a && k !in b ==> r[k] == a[k]
    ensures r == a + b
  {
    assert forall k :: k in r ==> r[k] == (a + b)[k];
  }

  /** Map extensionality for a left-biased union. */
  lemma IsLeftUnion<E>(r: map<string, E>, a: map<string, E>, b: map<string, E>)
    requires r.Keys == a.Keys + b.Keys
    requires forall k :: k in a ==> r[k] == a[k]
    requires forall k :: k in b && k !in a ==> r[k] == b[k]
    ensures r == b + a
  {
    assert forall k :: k in r ==> r[k] == (b + a)[k];
  }

  /** A property of a well-formed object has a position in the enumeration. */
  lemma PositionOf<E>(d: Dict<E>, sk: string) returns (i: nat)
    requires WellFormed(d) && sk in d.data
    ensures i < |d.order| && d.order[i] == sk
  {
    assert sk in Elems(d.order);
    i :| 0 <= i < |d.order| && d.order[i] == sk;
  }

  /** The names visited by the `for ... in` traversal are the object's
      properties. */
  lemma IdsOfPairs<E>(d: Dict<E>)
    requires WellFormed(d)
    ensures Ids(Pairs(d)) == d.data.Keys
  {
    var ps := Pairs(d);
    forall sk | sk in Ids(ps) ensures sk in d.data {
      var i := IdsWitness(ps, sk);
      assert d.order[i] in Elems(d.order);
    }
    forall sk | sk in d.data ensures sk in Ids(ps) {
      var i := PositionOf(d, sk);
      assert ps[i].0 == sk;
    }
  }

  /** The pair at a name's position in the traversal is the only pair for
      that name. */
  lemma PairsUnique<E>(src: Dict<E>, sk: string) returns (i: nat)
    requires WellFormed(src) && sk in src.data
    ensures i < |Pairs(src)| && Pairs(src)[i] == (sk, src.data[sk])
    ensures LastFor(Pairs(src), i) && FirstFor(Pairs(src), i)
  {
    var ps := Pairs(src);
    i := PositionOf(src, sk);
    forall j | 0 <= j < |ps| && j != i ensures ps[j].0 != ps[i].0 {
      assert ps[j].0 == src.order[j];
    }
  }

  /** Overwriting with every property of `src`, in enumeration order, lets
      `src` win on a shared name. */
  lemma OverlayTakesSource<E>(d: Dict<E>, size: int, src: Dict<E>)
    requires WellFormed(src)
    ensures forall sk :: sk in src.data ==> Overlay(d, size, Pairs(src)).0.data[sk] == src.data[sk]
  {
    OverlayLastWins(d, size, Pairs(src));
    forall sk | sk in src.data ensures Overlay(d, size, Pairs(src)).0.data[sk] == src.data[sk] {
      var i := PairsUnique(src, sk);
    }
  }

  /** Overwriting with every property of `src`, in enumeration order, is the
      right-biased union of the two maps. */
  lemma OverlayIsUnion<E>(d: Dict<E>, size: int, src: Dict<E>)
    requires WellFormed(src)
    ensures Overlay(d, size, Pairs(src)).0.data == d.data + src.data
  {
    IdsOfPairs(src);
    OverlayKeepsUnnamed(d, size, Pairs(src));
    OverlayTakesSource(d, size, src);
    IsUnion(Overlay(d, size, Pairs(src)).0.data, d.data, src.data);
  }

  /** A property of `src` missing from `d` gets its value from `src`. */
  lemma UnderlayTakesMissing<E>(d: Dict<E>, size: int, src: Dict<E>, sk: string)
    requires WellFormed(src) && sk in src.data && sk !in d.data
    ensures Underlay(d, size, Pairs(src)).0.data[sk] == src.data[sk]
  {
    var i := PairsUnique(src, sk);
    UnderlayFirstWins(d, size, Pairs(src));
  }

  lemma UnderlayTakesAllMissing<E>(d: Dict<E>, size: int, src: Dict<E>)
    requires WellFormed(src)
    ensures forall sk :: sk in src.data && sk !in d.data ==> Underlay(d, size, Pairs(src)).0.data[sk] == src.data[sk]
  {
    forall sk | sk in src.data && sk !in d.data
      ensures Underlay(d, size, Pairs(src)).0.data[sk] == src.data[sk]
    {
      UnderlayTakesMissing(d, size, src, sk);
    }
  }

  /** Writing only the properties of `src` that are still missing is the
      left-biased union: an existing property keeps its value. */
  lemma UnderlayIsUnion<E>(d: Dict<E>, size: int, src: Dict<E>)
    requires WellFormed(src)
    ensures Underlay(d, size, Pairs(src)).0.data == src.data + d.data
  {
    IdsOfPairs(src);
    UnderlayKeepsExisting(d, size, Pairs(src));
    UnderlayTakesAllMissing(d, size, src);
    IsLeftUnion(Underlay(d, size, Pairs(src)).0.data, d.data, src.data);
  }

  /** The selecting loop of StringMap.filter, StringSet.filter,
      StringSet.intersection and StringSet.complement, run over the first `n`
      properties of `src`: a property that passes `keep` is copied into a
      new object and the counter is incremented. */
  function Select<E>(src: Dict<E>, n: nat, keep: (string, E) -> bool): (r: (Dict<E>, int))
    requires WellFormed(src) && n <= |src.order|
    ensures WellFormed(r.0)
    ensures r.1 == |r.0.data|
    ensures forall sk :: sk in r.0.data <==> sk in src.order[..n] && keep(sk, src.data[sk])
    ensures forall sk :: sk in r.0.data ==> r.0.data[sk] == src.data[sk]
    decreases n
  {
    if n == 0 then (Empty(), 0)
    else
      var acc := Select(src, n - 1, keep);
      var sk := src.order[n - 1];
      assert src.order[..n] == src.order[..n - 1] + [sk];
      assert sk in Elems(src.order);
      assert sk !in src.order[..n - 1];
      if keep(sk, src.data[sk]) then (Assign(acc.0, sk, src.data[sk]), acc.1 + 1) else acc
  }

  /** The selected names keep their relative order in `src`. */
  lemma {:induction false} SelectOrder<E>(src: Dict<E>, n: nat, keep: (string, E) -> bool)
    requires WellFormed(src) && n <= |src.order|
    ensures Select(src, n, keep).0.order == Restrict(src.order[..n], Select(src, n, keep).0.data.Keys)
    decreases n
  {
    if n > 0 {
      SelectOrder(src, n - 1, keep);
      var acc := Select(src, n - 1, keep);
      var sk := src.order[n - 1];
      var prefix := src.order[..n - 1];
      assert src.order[..n] == prefix + [sk];
      assert sk !in prefix by {
        assert forall i :: 0 <= i < n - 1 ==> prefix[i] == src.order[i];
      }
      assert sk in Elems(src.order);
      var r := Select(src, n, keep);
      RestrictSame(prefix, acc.0.data.Keys, r.0.data.Keys);
      assert Restrict(src.order[..n], r.0.data.Keys)
        == Restrict(prefix, r.0.data.Keys) + (if sk in r.0.data then [sk] else []);
      if keep(sk, src.data[sk]) {
        assert r.0 == Assign(acc.0, sk, src.data[sk]);
        assert sk !in acc.0.data;
      } else {
        assert r == acc;
      }
    }
  }

  /** The properties `keep` accepts. */
  ghost function Accepted<E>(src: Dict<E>, keep: (string, E) -> bool): set<string>
  {
    set sk | sk in src.data && keep(sk, src.data[sk])
  }

  /** The selecting loop run over the whole object keeps exactly the
      accepted properties. */
  lemma SelectKeys<E>(src: Dict<E>, keep: (string, E) -> bool)
    requires WellFormed(src)
    ensures Select(src, |src.order|, keep).0.data.Keys == Accepted(src, keep)
  {
    assert src.order[..|src.order|] == src.order;
    assert Elems(src.order) == src.data.Keys;
  }

  /** `keep` accepts as many properties as there are exactly when it
      accepts them all. */
  lemma AcceptedAll<E>(src: Dict<E>, keep: (string, E) -> bool)
    ensures |Accepted(src, keep)| == |src.data| <==> forall sk :: sk in src.data ==> keep(sk, src.data[sk])
  {
    var a := Accepted(src, keep);
    assert a <= src.data.Keys;
    assert |src.data| == |src.data.Keys|;
    if |a| == |src.data.Keys| {
      SubsetOfSameSize(a, src.data.Keys);
    } else {
      assert a != src.data.Keys;
      var sk :| sk in src.data.Keys && sk !in a;
    }
  }

  lemma SubsetOfSameSize(a: set<string>, b: set<string>)
    requires a <= b && |a| == |b|
    ensures a == b
  {
    var c := b - a;
    assert b == a + c && a * c == {};
  }

  /** The transforming loop of StringMap.map and StringSet.map, run over the
      first `n` properties of `src`: each property is written, under the same
      name and in the same order, into a new object with the value `f` gives. */
  function Transform<E, F>(src: Dict<E>, n: nat, f: (string, E) -> F): (r: Dict<F>)
    requires WellFormed(src) && n <= |src.order|
    ensures WellFormed(r)
    ensures r.order == src.order[..n]
    ensures forall sk :: sk in r.data ==> sk in src.data && r.data[sk] == f(sk, src.data[sk])
    decreases n
  {
    if n == 0 then Empty()
    else
      var acc := Transform(src, n - 1, f);
      var sk := src.order[n - 1];
      assert src.order[..n] == src.order[..n - 1] + [sk];
      assert sk in Elems(src.order);
      assert sk !in src.order[..n - 1];
      Assign(acc, sk, f(sk, src.data[sk]))
  }

  /** The copying loop `for (const sk in src) result[sk] = src[sk]` into a
      fresh object reproduces `src`, enumeration order included. */
  function Copy<E>(src: Dict<E>): (r: Dict<E>)
    requires WellFormed(src)
    ensures r == src
  {
    var r := Transform(src, |src.order|, (sk: string, e: E) => e);
    assert r.order == src.order by {
      assert src.order[..|src.order|] == src.order;
    }
    SameData(r.data, src.data);
    r
  }

  lemma SameData<E>(a: map<string, E>, b: map<string, E>)
    requires a.Keys == b.Keys && forall k :: k in a ==> a[k] == b[k]
    ensures a == b
  {
  }

  /** Right-biased union of `a` with every object of `ds` in turn: the
      reference meaning of StringMap.concat and StringSet.union. */
  function LastWinsUnion<E>(a: map<string, E>, ds: seq<Dict<E>>): map<string, E>
    decreases |ds|
  {
    if ds == [] then a else LastWinsUnion(a, ds[..|ds| - 1]) + ds[|ds| - 1].data
  }

  /** Left-biased union of `a` with every object of `ds` in turn: the
      reference meaning of StringSet.concat. */
  function FirstWinsUnion<E>(a: map<string, E>, ds: seq<Dict<E>>): map<string, E>
    decreases |ds|
  {
    if ds == [] then a else ds[|ds| - 1].data + FirstWinsUnion(a, ds[..|ds| - 1])
  }

  /** The enumerations of the objects of `ds`, one after another: the names
      `for (const map of maps) for (const sk in map._data)` visits. */
  function AllNames<E>(ds: seq<Dict<E>>): seq<string>
    decreases |ds|
  {
    if ds == [] then [] else AllNames(ds[..|ds| - 1]) + ds[|ds| - 1].order
  }

  /** Every object of the sequence is well formed. */
  ghost predicate AllWellFormed<E>(ds: seq<Dict<E>>)
  {
    forall i :: 0 <= i < |ds| ==> WellFormed(ds[i])
  }

  /** The counting overwrite loop run over each object of `ds` in turn, as in
      `for (const map of maps) for (const sk in map._data)`. */
  function OverlayAll<E>(d: Dict<E>, size: int, ds: seq<Dict<E>>): (r: (Dict<E>, int))
    requires AllWellFormed(ds)
    ensures WellFormed(d) ==> WellFormed(r.0)
    ensures r.1 - |r.0.data| == size - |d.data|
    ensures r.0.data == LastWinsUnion(d.data, ds)
    decreases |ds|
  {
    if ds == [] then (d, size)
    else
      var acc := OverlayAll(d, size, ds[..|ds| - 1]);
      var last := ds[|ds| - 1];
      OverlayIsUnion(acc.0, acc.1, last);
      Overlay(acc.0, acc.1, Pairs(last))
  }

  /** The first-wins loop run over each object of `ds` in turn. */
  function UnderlayAll<E>(d: Dict<E>, size: int, ds: seq<Dict<E>>): (r: (Dict<E>, int))
    requires AllWellFormed(ds)
    ensures WellFormed(d) ==> WellFormed(r.0)
    ensures r.1 - |r.0.data| == size - |d.data|
    ensures r.0.data == FirstWinsUnion(d.data, ds)
    decreases |ds|
  {
    if ds == [] then (d, size)
    else
      var acc := UnderlayAll(d, size, ds[..|ds| - 1]);
      var last := ds[|ds| - 1];
      UnderlayIsUnion(acc.0, acc.1, last);
      Underlay(acc.0, acc.1, Pairs(last))
  }

  /** The traversal of an object visits its enumeration. */
  lemma NamesOfPairs<E>(d: Dict<E>)
    requires WellFormed(d)
    ensures Names(Pairs(d)) == d.order
  {
  }

  /** The nested overwrite loop keeps the base's names in place and then
      lists each new name in the order of its first visit across the
      objects of `ds`. */
  lemma {:induction false} OverlayAllOrder<E>(d: Dict<E>, size: int, ds: seq<Dict<E>>)
    requires WellFormed(d) && AllWellFormed(ds)
    ensures OverlayAll(d, size, ds).0.order == Appended(d.order, AllNames(ds))
    decreases |ds|
  {
    if ds != [] {
      var p := ds[..|ds| - 1];
      OverlayAllOrder(d, size, p);
      var acc := OverlayAll(d, size, p);
      var last := ds[|ds| - 1];
      OverlayOrder(acc.0, acc.1, Pairs(last));
      NamesOfPairs(last);
      AppendedTwice(d.order, AllNames(p), last.order);
    }
  }

  /** The nested first-wins loop orders the names as the nested overwrite
      loop does. */
  lemma {:induction false} UnderlayAllOrder<E>(d: Dict<E>, size: int, ds: seq<Dict<E>>)
    requires WellFormed(d) && AllWellFormed(ds)
    ensures UnderlayAll(d, size, ds).0.order == Appended(d.order, AllNames(ds))
    decreases |ds|
  {
    if ds != [] {
      var p := ds[..|ds| - 1];
      UnderlayAllOrder(d, size, p);
      var acc := UnderlayAll(d, size, p);
      var last := ds[|ds| - 1];
      UnderlayOrder(acc.0, acc.1, Pairs(last));
      NamesOfPairs(last);
      AppendedTwice(d.order, AllNames(p), last.order);
    }
  }

  /** Both unions hold exactly the names of `a` and of the objects of `ds`. */
  lemma {:induction false} UnionKeys<E>(a: map<string, E>, ds: seq<Dict<E>>, sk: string)
    ensures sk in LastWinsUnion(a, ds) <==> sk in a || exists i :: 0 <= i < |ds| && sk in ds[i].data
    ensures sk in FirstWinsUnion(a, ds) <==> sk in a || exists i :: 0 <= i < |ds| && sk in ds[i].data
    decreases |ds|
  {
    if ds != [] {
      var p := ds[..|ds| - 1];
      UnionKeys(a, p, sk);
      assert forall i :: 0 <= i < |p| ==> p[i] == ds[i];
      if sk in ds[|ds| - 1].data {
        assert 0 <= |ds| - 1 < |ds| && sk in ds[|ds| - 1].data;
      }
    }
  }

  /** In the right-biased union a name takes its value from the last object
      that has it, or from `a` when no object has it. */
  lemma {:induction false} LastWinsUnionValue<E>(a: map<string, E>, ds: seq<Dict<E>>, sk: string, i: int)
    requires 0 <= i < |ds| && sk in ds[i].data
    requires forall j :: i < j < |ds| ==> sk !in ds[j].data
    ensures sk in LastWinsUnion(a, ds) && LastWinsUnion(a, ds)[sk] == ds[i].data[sk]
    decreases |ds|
  {
    if i < |ds| - 1 {
      var p := ds[..|ds| - 1];
      assert p[i] == ds[i];
      LastWinsUnionValue(a, p, sk, i);
    }
  }

  /** In the left-biased union a name of `a` keeps its value, and any other
      name takes its value from the first object that has it. */
  lemma {:induction false} FirstWinsUnionValue<E>(a: map<string, E>, ds: seq<Dict<E>>, sk: string, i: int)
    requires 0 <= i < |ds| && sk in ds[i].data && sk !in a
    requires forall j :: 0 <= j < i ==> sk !in ds[j].data
    ensures sk in FirstWinsUnion(a, ds) && FirstWinsUnion(a, ds)[sk] == ds[i].data[sk]
    decreases |ds|
  {
    var p := ds[..|ds| - 1];
    if i < |ds| - 1 {
      assert p[i] == ds[i];
      FirstWinsUnionValue(a, p, sk, i);
    } else {
      UnionKeys(a, p, sk);
      assert forall j :: 0 <= j < |p| ==> p[j] == ds[j];
    }
  }

  /** In the left-biased union a name of `a` keeps its value. */
  lemma {:induction false} FirstWinsUnionKeeps<E>(a: map<string, E>, ds: seq<Dict<E>>, sk: string)
    requires sk in a
    ensures sk in FirstWinsUnion(a, ds) && FirstWinsUnion(a, ds)[sk] == a[sk]
    decreases |ds|
  {
    if ds != [] {
      FirstWinsUnionKeeps(a, ds[..|ds| - 1], sk);
    }
  }

  /** `sk` is a property of every object of `ds`; the inner loop of
      StringSet.intersection, which stops at the first object that lacks it. */
  predicate InAll<E>(sk: string, ds: seq<Dict<E>>)
    decreases |ds|
  {
    ds == [] || (HasOwn(ds[0], sk) && InAll(sk, ds[1..]))
  }

  lemma {:induction false} InAllMeans<E>(sk: string, ds: seq<Dict<E>>)
    ensures InAll(sk, ds) <==> forall i :: 0 <= i < |ds| ==> sk in ds[i].data
    decreases |ds|
  {
    if ds != [] {
      InAllMeans(sk, ds[1..]);
      assert forall i :: 1 <= i < |ds| ==> ds[i] == ds[1..][i - 1];
    }
  }

  /** `sk` is a property of some object of `ds`; the inner loop of
      StringSet.complement, which stops at the first object that has it. */
  predicate InSome<E>(sk: string, ds: seq<Dict<E>>)
    decreases |ds|
  {
    ds != [] && (HasOwn(ds[0], sk) || InSome(sk, ds[1..]))
  }

  lemma {:induction false} InSomeMeans<E>(sk: string, ds: seq<Dict<E>>)
    ensures InSome(sk, ds) <==> exists i :: 0 <= i < |ds| && sk in ds[i].data
    decreases |ds|
  {
    if ds != [] {
      InSomeMeans(sk, ds[1..]);
      assert forall i :: 1 <= i < |ds| ==> ds[i] == ds[1..][i - 1];
    }
  }
}

=== FILE: string_map.dfy ===
/** StringMap<K,V>: a map whose keys are arbitrary objects identified by
    their string form. The identity function (`key.toString()` in the
    source) is a parameter `id`; the backing object maps each identity to
    the original key and its value. The `_size` counter is maintained
    incrementally, and the `keys`/`values`/`entries` views are built lazily
    and dropped by every mutation. */
module StringMaps {
  import opened Wrappers
  import opened ObjectStore
  import Traversal

  datatype StringMap<K, V> = StringMap(
    store: Dict<(K, V)>,
    size: int,
    keysCache: Option<seq<K>>,
    valuesCache: Option<seq<V>>,
    entriesCache: Option<seq<(K, V)>>)

  /** The entries of the store, in enumeration order. */
  function EntriesView<K, V>(m: StringMap<K, V>): (es: seq<(K, V)>)
    requires WellFormed(m.store)
    ensures |es| == |m.store.order|
    ensures forall i :: 0 <= i < |es| ==> es[i] == m.store.data[m.store.order[i]]
  {
    Vals(m.store)
  }

  /** The keys of the store, in enumeration order. */
  function KeysView<K, V>(m: StringMap<K, V>): (ks: seq<K>)
    requires WellFormed(m.store)
    ensures |ks| == |EntriesView(m)|
    ensures forall i :: 0 <= i < |ks| ==> ks[i] == EntriesView(m)[i].0
  {
    var es := EntriesView(m);
    seq(|es|, i requires 0 <= i < |es| => es[i].0)
  }

  /** The values of the store, in enumeration order. */
  function ValuesView<K, V>(m: StringMap<K, V>): (vs: seq<V>)
    requires WellFormed(m.store)
    ensures |vs| == |EntriesView(m)|
    ensures forall i :: 0 <= i < |vs| ==> vs[i] == EntriesView(m)[i].1
  {
    var es := EntriesView(m);
    seq(|es|, i requires 0 <= i < |es| => es[i].1)
  }

  /** Every cache that is present equals the view derived from the store. */
  ghost predicate CachesFresh<K, V>(m: StringMap<K, V>)
    requires WellFormed(m.store)
  {
    && (m.keysCache.Some? ==> m.keysCache.value == KeysView(m))
    && (m.valuesCache.Some? ==> m.valuesCache.value == ValuesView(m))
    && (m.entriesCache.Some? ==> m.entriesCache.value == EntriesView(m))
  }

  /** The representation invariant: the counter equals the number of live
      identities and no cache is stale. */
  ghost predicate Valid<K, V>(m: StringMap<K, V>)
  {
    WellFormed(m.store) && m.size == |m.store.data| && CachesFresh(m)
  }

  ghost predicate NoCaches<K, V>(m: StringMap<K, V>)
  {
    m.keysCache.None? && m.valuesCache.None? && m.entriesCache.None?
  }

  /** `clearCache()`: all three views are dropped, nothing else changes. */
  function ClearCache<K, V>(m: StringMap<K, V>): (r: StringMap<K, V>)
    ensures NoCaches(r)
    ensures r.store == m.store && r.size == m.size
    ensures WellFormed(m.store) && m.size == |m.store.data| ==> Valid(r)
  {
    m.(keysCache := None, valuesCache := None, entriesCache := None)
  }

  /** `new StringMap()`. */
  function New<K, V>(): (m: StringMap<K, V>)
    ensures Valid(m) && NoCaches(m)
    ensures m.size == 0 && m.store.data == map[]
  {
    StringMap(Empty(), 0, None, None, None)
  }

  /** The input pairs tagged with the identity of their key. */
  function Tagged<K, V>(id: K -> string, pairs: seq<(K, V)>): (ps: seq<(string, (K, V))>)
    ensures |ps| == |pairs|
    ensures forall i :: 0 <= i < |ps| ==> ps[i] == (id(pairs[i].0), pairs[i])
  {
    seq(|pairs|, i requires 0 <= i < |pairs| => (id(pairs[i].0), pairs[i]))
  }

  /** No later pair has a key with the same identity as `pairs[i]`. */
  ghost predicate LastWith<K, V>(id: K -> string, pairs: seq<(K, V)>, i: int)
    requires 0 <= i < |pairs|
  {
    forall j :: i < j < |pairs| ==> id(pairs[j].0) != id(pairs[i].0)
  }

  /** The identities named by the tagged pairs are those of the input keys. */
  lemma TaggedIds<K, V>(id: K -> string, pairs: seq<(K, V)>)
    ensures forall sk :: sk in Ids(Tagged(id, pairs)) <==> exists i :: 0 <= i < |pairs| && id(pairs[i].0) == sk
  {
    var ps := Tagged(id, pairs);
    forall sk | sk in Ids(ps) ensures exists i :: 0 <= i < |pairs| && id(pairs[i].0) == sk {
      var i := IdsWitness(ps, sk);
      assert id(pairs[i].0) == sk;
    }
  }

  /** The last pair for an identity is the one the overwrite loop keeps. */
  lemma TaggedLast<K, V>(id: K -> string, pairs: seq<(K, V)>, data: map<string, (K, V)>)
    requires data == Overlay(Empty(), 0, Tagged(id, pairs)).0.data
    ensures forall i :: 0 <= i < |pairs| && LastWith(id, pairs, i) ==> data[id(pairs[i].0)] == pairs[i]
  {
    var ps := Tagged(id, pairs);
    OverlayLastWins(Empty(), 0, ps);
    forall i | 0 <= i < |pairs| && LastWith(id, pairs, i)
      ensures data[id(pairs[i].0)] == pairs[i]
    {
      forall j | i < j < |ps| ensures ps[j].0 != ps[i].0 {
        assert ps[j].0 == id(pairs[j].0);
      }
      assert LastFor(ps, i);
    }
  }

  /** `new StringMap(arraylike)`: the pairs are stored one by one, the last
      pair with a given identity wins, and the counter ends up as the number
      of distinct identities (part of Valid). Passing no array behaves as the empty one. */
  function FromPairs<K, V>(id: K -> string, pairs: seq<(K, V)>): (m: StringMap<K, V>)
    ensures Valid(m) && NoCaches(m)
    ensures forall sk :: sk in m.store.data <==> exists i :: 0 <= i < |pairs| && id(pairs[i].0) == sk
    ensures forall i :: 0 <= i < |pairs| && LastWith(id, pairs, i) ==> m.store.data[id(pairs[i].0)] == pairs[i]
    ensures m.store.order == Appended([], Names(Tagged(id, pairs)))
  {
    var ps := Tagged(id, pairs);
    var r := Overlay(Empty(), 0, ps);
    OverlayOrder(Empty(), 0, ps);
    TaggedIds(id, pairs);
    TaggedLast(id, pairs, r.0.data);
    StringMap(r.0, r.1, None, None, None)
  }

  /** Each identity of a constructed map comes from one of the pairs. */
  lemma KeyWitness<K, V>(id: K -> string, pairs: seq<(K, V)>, sk: string) returns (i: nat)
    requires sk in FromPairs(id, pairs).store.data
    ensures i < |pairs| && id(pairs[i].0) == sk
  {
    i :| 0 <= i < |pairs| && id(pairs[i].0) == sk;
  }

  /** `has(key)`: presence by identity. */
  predicate Has<K, V>(m: StringMap<K, V>, id: K -> string, key: K)
    ensures WellFormed(m.store) ==> (Has(m, id, key) <==> id(key) in m.store.order)
  {
    HasOwn(m.store, id(key))
  }

  /** `get(key)`: the value stored under the key's identity, or None for
      `undefined`. */
  function Get<K, V>(m: StringMap<K, V>, id: K -> string, key: K): (r: Option<V>)
    ensures r.Some? <==> Has(m, id, key)
    ensures r.Some? ==> (m.store.data[id(key)].1 == r.value)
  {
    match Lookup(m.store, id(key))
    case Some(e) => Some(e.1)
    case None => None
  }

  /** `set(key, value)`: inserts or overwrites the entry at the key's
      identity, counts it only when the identity was absent, drops every
      cache and returns the (updated) map itself. */
  function Set<K, V>(m: StringMap<K, V>, id: K -> string, key: K, value: V): (r: StringMap<K, V>)
    ensures Has(r, id, key) && Get(r, id, key) == Some(value)
    ensures r.store.data[id(key)] == (key, value)
    ensures forall sk :: sk != id(key) ==> Lookup(r.store, sk) == Lookup(m.store, sk)
    ensures r.size == if Has(m, id, key) then m.size else m.size + 1
    ensures NoCaches(r)
    ensures Valid(m) ==> Valid(r)
  {
    var sk := id(key);
    var size := if !HasOwn(m.store, sk) then m.size + 1 else m.size;
    ClearCache(StringMap(Assign(m.store, sk, (key, value)), size, m.keysCache, m.valuesCache, m.entriesCache))
  }

  /** `clear()`: guarded by the counter, not by the store. When the counter
      is positive the store is emptied, the counter reset and the caches
      dropped; otherwise nothing changes. */
  function Clear<K, V>(m: StringMap<K, V>): (r: StringMap<K, V>)
    ensures m.size > 0 ==> r.store.data == map[] && r.size == 0 && NoCaches(r)
    ensures m.size <= 0 ==> r == m
    ensures Valid(m) ==> Valid(r) && |r.store.data| == 0
  {
    if m.size > 0 then ClearCache(m.(store := Empty(), size := 0)) else m
  }

  /** `delete(key)`: true iff the identity was present, in which case the
      entry is removed, the caches dropped and the counter decremented; on
      false nothing changes, caches included. */
  function Delete<K, V>(m: StringMap<K, V>, id: K -> string, key: K): (r: (StringMap<K, V>, bool))
    ensures r.1 <==> Has(m, id, key)
    ensures r.1 ==> !Has(r.0, id, key) && r.0.size == m.size - 1 && NoCaches(r.0)
    ensures r.1 ==> forall sk :: sk != id(key) ==> Lookup(r.0.store, sk) == Lookup(m.store, sk)
    ensures !r.1 ==> r.0 == m
    ensures Valid(m) ==> Valid(r.0)
  {
    var sk := id(key);
    if HasOwn(m.store, sk) then
      (ClearCache(m.(store := Remove(m.store, sk))).(size := m.size - 1), true)
    else
      (m, false)
  }

  /** `keys()`: the cached view when present, else the view materialised
      from the store and kept in the cache. */
  function Keys<K, V>(m: StringMap<K, V>): (r: (StringMap<K, V>, seq<K>))
    requires WellFormed(m.store)
    ensures m.keysCache.Some? ==> r.1 == m.keysCache.value
    ensures r.0 == m.(keysCache := Some(r.1))
    ensures m.keysCache.None? ==> r.1 == KeysView(m)
    ensures CachesFresh(m) ==> r.1 == KeysView(m)
    ensures Valid(m) ==> Valid(r.0)
  {
    match m.keysCache
    case Some(ks) => (m, ks)
    case None =>
      var ks := KeysView(m);
      (m.(keysCache := Some(ks)), ks)
  }

  /** `values()`, cached like `keys()`. */
  function Values<K, V>(m: StringMap<K, V>): (r: (StringMap<K, V>, seq<V>))
    requires WellFormed(m.store)
    ensures m.valuesCache.Some? ==> r.1 == m.valuesCache.value
    ensures r.0 == m.(valuesCache := Some(r.1))
    ensures m.valuesCache.None? ==> r.1 == ValuesView(m)
    ensures CachesFresh(m) ==> r.1 == ValuesView(m)
    ensures Valid(m) ==> Valid(r.0)
  {
    match m.valuesCache
    case Some(vs) => (m, vs)
    case None =>
      var vs := ValuesView(m);
      (m.(valuesCache := Some(vs)), vs)
  }

  /** `entries()`, cached like `keys()`. */
  function Entries<K, V>(m: StringMap<K, V>): (r: (StringMap<K, V>, seq<(K, V)>))
    requires WellFormed(m.store)
    ensures m.entriesCache.Some? ==> r.1 == m.entriesCache.value
    ensures r.0 == m.(entriesCache := Some(r.1))
    ensures m.entriesCache.None? ==> r.1 == EntriesView(m)
    ensures CachesFresh(m) ==> r.1 == EntriesView(m)
    ensures Valid(m) ==> Valid(r.0)
  {
    match m.entriesCache
    case Some(es) => (m, es)
    case None =>
      var es := EntriesView(m);
      (m.(entriesCache := Some(es)), es)
  }

  /** The `size` getter: the counter, which on a valid map is the number of
      live identities. */
  function Size<K, V>(m: StringMap<K, V>): (n: int)
    ensures Valid(m) ==> n == |m.store.data|
  {
    m.size
  }

  /** `reduce(callback, initialValue)`: `acc = callback(acc, value, key)` for
      each entry in enumeration order. */
  function Reduce<K, V, T>(m: StringMap<K, V>, f: (T, V, K) -> T, init: T): (r: T)
    requires WellFormed(m.store)
    ensures m.store.order == [] ==> r == init
    ensures m.store.order != [] ==>
      var first := m.store.data[m.store.order[0]];
      r == Traversal.Fold(EntriesView(m)[1..], Visit(f), f(init, first.1, first.0))
  {
    Traversal.Fold(EntriesView(m), Visit(f), init)
  }

  /** The callback of `reduce`, applied to an entry. */
  function Visit<K, V, T>(f: (T, V, K) -> T): (T, (K, V)) -> T
  {
    (acc: T, e: (K, V)) => f(acc, e.1, e.0)
  }

  /** Reducing with a counting callback gives the number of live
      identities, which on a valid map is its size. */
  lemma ReduceCountsSize<K, V>(m: StringMap<K, V>, count: (int, V, K) -> int)
    requires WellFormed(m.store)
    requires forall n, v, k :: count(n, v, k) == n + 1
    ensures Reduce(m, count, 0) == |m.store.data|
    ensures Valid(m) ==> Reduce(m, count, 0) == Size(m)
  {
    forall n: int, e: (K, V) ensures Visit(count)(n, e) == n + 1 {
      assert Visit(count)(n, e) == count(n, e.1, e.0);
    }
    Traversal.FoldCounts(EntriesView(m), Visit(count));
    CountIsLength(m.store);
  }

  /** Setting a new key makes it the last entry `reduce` visits. */
  lemma ReduceAfterSetNew<K, V, T>(m: StringMap<K, V>, id: K -> string, key: K, value: V, f: (T, V, K) -> T, init: T)
    requires WellFormed(m.store) && !Has(m, id, key)
    ensures WellFormed(Set(m, id, key, value).store)
    ensures Reduce(Set(m, id, key, value), f, init) == f(Reduce(m, f, init), value, key)
  {
    ValsAssignNew(m.store, id(key), (key, value));
    Traversal.FoldSnoc(EntriesView(m), (key, value), Visit(f), init);
  }

  /** Setting a key whose identity is already present keeps the
      enumeration order: only that entry's slot of `keys()`, `values()` and
      `entries()` changes. */
  lemma SetExistingInPlace<K, V>(m: StringMap<K, V>, id: K -> string, key: K, value: V, i: int)
    requires WellFormed(m.store) && 0 <= i < |m.store.order| && m.store.order[i] == id(key)
    ensures Set(m, id, key, value).store.order == m.store.order
    ensures EntriesView(Set(m, id, key, value)) == EntriesView(m)[i := (key, value)]
    ensures KeysView(Set(m, id, key, value)) == KeysView(m)[i := key]
    ensures ValuesView(Set(m, id, key, value)) == ValuesView(m)[i := value]
  {
    ValsAssignExisting(m.store, id(key), (key, value), i);
  }

  /** `map(callback)`: a new map with the same identities, keys and
      enumeration order, whose values are the callback's results; its counter
      is copied from the receiver. */
  function Map<K, V, U>(m: StringMap<K, V>, f: (V, K) -> U): (r: StringMap<K, U>)
    requires WellFormed(m.store)
    ensures r.store.order == m.store.order
    ensures forall sk :: sk in r.store.data <==> sk in m.store.data
    ensures forall sk :: sk in r.store.data ==>
      r.store.data[sk] == (m.store.data[sk].0, f(m.store.data[sk].1, m.store.data[sk].0))
    ensures r.size == m.size && NoCaches(r)
    ensures Valid(m) ==> Valid(r)
  {
    var d := Transform(m.store, |m.store.order|, (sk: string, e: (K, V)) => (e.0, f(e.1, e.0)));
    assert m.store.order[..|m.store.order|] == m.store.order;
    StringMap(d, m.size, None, None, None)
  }

  /** Mapping keeps every key and replaces what `get` returns by the
      callback's result. */
  lemma MapGet<K, V, U>(m: StringMap<K, V>, f: (V, K) -> U, id: K -> string, key: K)
    requires WellFormed(m.store)
    ensures Has(Map(m, f), id, key) <==> Has(m, id, key)
    ensures Has(m, id, key) ==>
      Get(Map(m, f), id, key) == Some(f(Get(m, id, key).value, m.store.data[id(key)].0))
  {
  }

  /** The entries the callback accepts, copied into a new object. */
  function Kept<K, V>(m: StringMap<K, V>, p: (V, K) -> bool): (r: (Dict<(K, V)>, int))
    requires WellFormed(m.store)
    ensures WellFormed(r.0) && r.1 == |r.0.data|
    ensures forall sk :: sk in r.0.data <==> sk in m.store.data && p(m.store.data[sk].1, m.store.data[sk].0)
    ensures forall sk :: sk in r.0.data ==> r.0.data[sk] == m.store.data[sk]
    ensures r.0.order == Restrict(m.store.order, r.0.data.Keys)
  {
    assert m.store.order[..|m.store.order|] == m.store.order;
    var keep := (sk: string, e: (K, V)) => p(e.1, e.0);
    SelectOrder(m.store, |m.store.order|, keep);
    Select(m.store, |m.store.order|, keep)
  }

  /** `filter(callback)`, as written: the accepted entries are copied into a
      new map, but the count of accepted entries is stored into the
      RECEIVER's counter, and the new map's counter stays 0. The result is
      the pair (receiver afterwards, new map). */
  function Filter<K, V>(m: StringMap<K, V>, p: (V, K) -> bool): (r: (StringMap<K, V>, StringMap<K, V>))
    requires WellFormed(m.store)
    ensures r.0.store == m.store && r.0.size == |r.1.store.data|
    ensures r.0.keysCache == m.keysCache && r.0.valuesCache == m.valuesCache && r.0.entriesCache == m.entriesCache
    ensures WellFormed(r.1.store) && r.1.size == 0 && NoCaches(r.1)
    ensures forall sk :: sk in r.1.store.data <==> sk in m.store.data && p(m.store.data[sk].1, m.store.data[sk].0)
    ensures forall sk :: sk in r.1.store.data ==> r.1.store.data[sk] == m.store.data[sk]
    ensures r.1.store.order == Restrict(m.store.order, r.1.store.data.Keys)
  {
    var kept := Kept(m, p);
    (m.(size := kept.1), StringMap(kept.0, 0, None, None, None))
  }

  /** Filtering a valid map as written leaves a non-empty result with a
      counter of 0. */
  lemma FilterResultMiscounts<K, V>(m: StringMap<K, V>, p: (V, K) -> bool)
    requires WellFormed(m.store)
    ensures |Filter(m, p).1.store.data| > 0 ==> !Valid(Filter(m, p).1)
  {
  }

  /** Filtering a valid map as written leaves the receiver valid only if
      the callback accepted every entry. */
  lemma FilterReceiverMiscounts<K, V>(m: StringMap<K, V>, p: (V, K) -> bool)
    requires Valid(m)
    ensures Valid(Filter(m, p).0) <==> forall sk :: sk in m.store.data ==> p(m.store.data[sk].1, m.store.data[sk].0)
  {
    KeptAll(m, p);
  }

  /** The callback keeps as many entries as there are exactly when it keeps
      them all. */
  lemma KeptAll<K, V>(m: StringMap<K, V>, p: (V, K) -> bool)
    requires WellFormed(m.store)
    ensures |Kept(m, p).0.data| == |m.store.data| <==> forall sk :: sk in m.store.data ==> p(m.store.data[sk].1, m.store.data[sk].0)
  {
    var keep := (sk: string, e: (K, V)) => p(e.1, e.0);
    SelectKeys(m.store, keep);
    AcceptedAll(m.store, keep);
  }

  /** A consequence: after a filter that rejects every entry the receiver's
      counter is 0, so a later `clear()` does nothing and the entries
      survive it. */
  lemma FilterThenClearKeepsEntries<K, V>(m: StringMap<K, V>, p: (V, K) -> bool)
    requires WellFormed(m.store)
    requires forall sk :: sk in m.store.data ==> !p(m.store.data[sk].1, m.store.data[sk].0)
    ensures Clear(Filter(m, p).0).store == m.store
  {
    assert Filter(m, p).1.store.data.Keys == {};
  }

  /** A concrete instance: filtering the valid map {"a": 1, "b": 2} for
      values above 1, as written, gives a map that holds "b" but reports size
      0, and sets the receiver's size to 1 although it still holds both
      entries. */
  lemma FilterCounterexample()
    ensures var m := StringMap(Dict(map["a" := ("a", 1), "b" := ("b", 2)], ["a", "b"]), 2, None, None, None);
      var r := Filter(m, (v: int, k: string) => v > 1);
      Valid(m) && r.1.store.data.Keys == {"b"} && Size(r.1) == 0
      && Size(r.0) == 1 && |r.0.store.data| == 2
  {
    var m := StringMap(Dict(map["a" := ("a", 1), "b" := ("b", 2)], ["a", "b"]), 2, None, None, None);
    assert Elems(m.store.order) == {"a", "b"};
    assert |m.store.data| == |m.store.data.Keys| == |{"a", "b"}| == 2;
    var r := Filter(m, (v: int, k: string) => v > 1);
    FilterKeysB(m, (v: int, k: string) => v > 1);
    assert r.0.size == |r.1.store.data.Keys| == |{"b"}| == 1;
  }

  lemma FilterKeysB(m: StringMap<string, int>, p: (int, string) -> bool)
    requires m.store == Dict(map["a" := ("a", 1), "b" := ("b", 2)], ["a", "b"]) && WellFormed(m.store)
    requires !p(1, "a") && p(2, "b")
    ensures Filter(m, p).1.store.data.Keys == {"b"}
  {
    var r := Filter(m, p);
    assert "a" !in r.1.store.data && "b" in r.1.store.data;
  }

  /** The evidently intended `filter`: the new map's counter is the number
      of accepted entries and the receiver is left unchanged. */
  function FilterIntended<K, V>(m: StringMap<K, V>, p: (V, K) -> bool): (r: StringMap<K, V>)
    requires WellFormed(m.store)
    ensures Valid(r) && NoCaches(r)
    ensures forall sk :: sk in r.store.data <==> sk in m.store.data && p(m.store.data[sk].1, m.store.data[sk].0)
    ensures forall sk :: sk in r.store.data ==> r.store.data[sk] == m.store.data[sk]
    ensures r.store.order == Restrict(m.store.order, r.store.data.Keys)
  {
    var kept := Kept(m, p);
    StringMap(kept.0, kept.1, None, None, None)
  }

  /** A corrected filter that accepts every entry copies the store. */
  lemma FilterIntendedKeepsAll<K, V>(m: StringMap<K, V>, p: (V, K) -> bool)
    requires WellFormed(m.store)
    requires forall sk :: sk in m.store.data ==> p(m.store.data[sk].1, m.store.data[sk].0)
    ensures FilterIntended(m, p).store == m.store
  {
    var r := FilterIntended(m, p);
    assert r.store.data == m.store.data;
    forall i | 0 <= i < |m.store.order|
      ensures m.store.order[i] in r.store.data.Keys
    {
      assert m.store.order[i] in Elems(m.store.order);
    }
    RestrictAll(m.store.order, r.store.data.Keys);
  }

  /** `every(callback)`: true iff the callback accepts every entry. */
  function Every<K, V>(m: StringMap<K, V>, p: (V, K) -> bool): (r: bool)
    requires WellFormed(m.store)
    ensures r <==> forall sk :: sk in m.store.data ==> p(m.store.data[sk].1, m.store.data[sk].0)
  {
    var es := EntriesView(m);
    var r := Traversal.Every(es, (e: (K, V)) => p(e.1, e.0));
    EntryPositions(m);
    r
  }

  /** `some(callback)`: true iff the callback accepts some entry. */
  function Any<K, V>(m: StringMap<K, V>, p: (V, K) -> bool): (r: bool)
    requires WellFormed(m.store)
    ensures r <==> exists sk :: sk in m.store.data && p(m.store.data[sk].1, m.store.data[sk].0)
  {
    var es := EntriesView(m);
    var r := Traversal.Any(es, (e: (K, V)) => p(e.1, e.0));
    EntryPositions(m);
    r
  }

  /** The entries view visits exactly the live entries. */
  lemma EntryPositions<K, V>(m: StringMap<K, V>)
    requires WellFormed(m.store)
    ensures forall i :: 0 <= i < |EntriesView(m)| ==>
      m.store.order[i] in m.store.data && EntriesView(m)[i] == m.store.data[m.store.order[i]]
    ensures forall sk :: sk in m.store.data ==> exists i :: 0 <= i < |m.store.order| && m.store.order[i] == sk
  {
    forall i | 0 <= i < |EntriesView(m)| ensures m.store.order[i] in m.store.data {
      assert m.store.order[i] in Elems(m.store.order);
    }
    forall sk | sk in m.store.data ensures exists i :: 0 <= i < |m.store.order| && m.store.order[i] == sk {
      var i := PositionOf(m.store, sk);
    }
  }

  /** `some` is the dual of `every`. */
  lemma AnyIsNotEveryNot<K, V>(m: StringMap<K, V>, p: (V, K) -> bool)
    requires WellFormed(m.store)
    ensures Any(m, p) == !Every(m, (v: V, k: K) => !p(v, k))
  {
  }

  /** `findKey(value)`: the key of the first entry, in enumeration order,
      whose value is `value`; None for `undefined` when there is none. */
  function FindKey<K, V(==)>(m: StringMap<K, V>, v: V): (r: Option<K>)
    requires WellFormed(m.store)
    ensures r.None? <==> forall sk :: sk in m.store.data ==> m.store.data[sk].1 != v
    ensures r.Some? ==> exists i ::
      (0 <= i < |EntriesView(m)| && EntriesView(m)[i] == (r.value, v) && forall j :: 0 <= j < i ==> EntriesView(m)[j].1 != v)
  {
    var es := EntriesView(m);
    EntryPositions(m);
    match Traversal.FindFirst(es, (e: (K, V)) => e.1 == v)
    case None => None
    case Some(i) => Some(es[i].0)
  }

  /** The stores of a sequence of maps. */
  function Stores<K, V>(maps: seq<StringMap<K, V>>): (ds: seq<Dict<(K, V)>>)
    ensures |ds| == |maps|
    ensures forall i :: 0 <= i < |ds| ==> ds[i] == maps[i].store
  {
    seq(|maps|, i requires 0 <= i < |maps| => maps[i].store)
  }

  /** `concat(...maps)`: a new map holding the receiver's entries overwritten
      by each argument's entries in turn, so that the last map with an
      identity wins. The counter starts from the receiver's and is adjusted
      by the overwrite loop, so it is off by exactly as much as the
      receiver's. */
  function Concat<K, V>(m: StringMap<K, V>, maps: seq<StringMap<K, V>>): (r: StringMap<K, V>)
    requires WellFormed(m.store) && forall i :: 0 <= i < |maps| ==> WellFormed(maps[i].store)
    ensures r.store.data == LastWinsUnion(m.store.data, Stores(maps))
    ensures r.size - |r.store.data| == m.size - |m.store.data|
    ensures WellFormed(r.store) && NoCaches(r)
    ensures Valid(m) ==> Valid(r)
    ensures r.store.order == Appended(m.store.order, AllNames(Stores(maps)))
  {
    var acc := OverlayAll(Copy(m.store), m.size, Stores(maps));
    OverlayAllOrder(Copy(m.store), m.size, Stores(maps));
    StringMap(acc.0, acc.1, None, None, None)
  }

  /** A key is in the concatenation iff the receiver or some argument has
      its identity. */
  lemma ConcatHas<K, V>(m: StringMap<K, V>, maps: seq<StringMap<K, V>>, id: K -> string, key: K)
    requires WellFormed(m.store) && forall i :: 0 <= i < |maps| ==> WellFormed(maps[i].store)
    ensures Has(Concat(m, maps), id, key) <==> Has(m, id, key) || exists i :: 0 <= i < |maps| && Has(maps[i], id, key)
  {
    var r := Concat(m, maps);
    assert Has(r, id, key) <==> id(key) in r.store.data;
    UnionKeys(m.store.data, Stores(maps), id(key));
    SomeHas(maps, id, key);
  }

  lemma SomeHas<K, V>(maps: seq<StringMap<K, V>>, id: K -> string, key: K)
    ensures (exists i :: 0 <= i < |maps| && Has(maps[i], id, key))
        <==> exists i :: 0 <= i < |Stores(maps)| && id(key) in Stores(maps)[i].data
  {
    if exists i :: 0 <= i < |Stores(maps)| && id(key) in Stores(maps)[i].data {
      var i :| 0 <= i < |Stores(maps)| && id(key) in Stores(maps)[i].data;
      assert Has(maps[i], id, key);
    }
    if exists i :: 0 <= i < |maps| && Has(maps[i], id, key) {
      var i :| 0 <= i < |maps| && Has(maps[i], id, key);
      assert id(key) in Stores(maps)[i].data;
    }
  }

  /** The concatenation takes an identity's entry from the last argument
      that has it. */
  lemma ConcatLastWins<K, V>(m: StringMap<K, V>, maps: seq<StringMap<K, V>>, id: K -> string, key: K, i: int)
    requires WellFormed(m.store) && forall i :: 0 <= i < |maps| ==> WellFormed(maps[i].store)
    requires 0 <= i < |maps| && Has(maps[i], id, key)
    requires forall j :: i < j < |maps| ==> !Has(maps[j], id, key)
    ensures Get(Concat(m, maps), id, key) == Get(maps[i], id, key)
  {
    LastWinsUnionValue(m.store.data, Stores(maps), id(key), i);
  }

  /** Concatenating in two steps is concatenating once. */
  lemma ConcatTwice<K, V>(m: StringMap<K, V>, a: StringMap<K, V>, b: StringMap<K, V>)
    requires WellFormed(m.store) && WellFormed(a.store) && WellFormed(b.store)
    ensures Concat(Concat(m, [a]), [b]).store.data == Concat(m, [a, b]).store.data
    ensures Concat(Concat(m, [a]), [b]).size == Concat(m, [a, b]).size
  {
    assert Stores([a, b])[..1] == Stores([a]);
  }

  /** On a valid map all three views have `size` elements. */
  lemma ViewsHaveSize<K, V>(m: StringMap<K, V>)
    requires Valid(m)
    ensures |KeysView(m)| == |ValuesView(m)| == |EntriesView(m)| == Size(m)
  {
    CountIsLength(m.store);
  }

  /** A second `keys()` returns the cached array and changes nothing. */
  lemma KeysIsCached<K, V>(m: StringMap<K, V>)
    requires WellFormed(m.store)
    ensures Keys(Keys(m).0) == Keys(m)
  {
  }

  /** Setting a key that was absent and then deleting it restores the
      store, enumeration order included, and the counter; only the caches
      are gone. */
  lemma {:induction false} DeleteUndoesSet<K, V>(m: StringMap<K, V>, id: K -> string, key: K, value: V)
    requires WellFormed(m.store) && !Has(m, id, key)
    ensures Delete(Set(m, id, key, value), id, key) == (ClearCache(m), true)
  {
    RemoveUndoesAssign(m.store, id(key), (key, value));
  }

  /** Setting the same key to the same value twice is setting it once. */
  lemma SetTwice<K, V>(m: StringMap<K, V>, id: K -> string, key: K, value: V)
    ensures Set(Set(m, id, key, value), id, key, value) == Set(m, id, key, value)
  {
  }

  /** The operations that mutate a map in place or read one of its views. */
  datatype Op<K, V> =
    | SetOp(key: K, value: V)
    | DeleteOp(key: K)
    | ClearOp
    | ClearCacheOp
    | KeysOp
    | ValuesOp
    | EntriesOp

  /** The map after one operation. */
  function Apply<K, V>(m: StringMap<K, V>, id: K -> string, op: Op<K, V>): (r: StringMap<K, V>)
    requires WellFormed(m.store)
    ensures WellFormed(r.store)
    ensures Valid(m) ==> Valid(r)
  {
    match op
    case SetOp(key, value) => Set(m, id, key, value)
    case DeleteOp(key) => Delete(m, id, key).0
    case ClearOp => Clear(m)
    case ClearCacheOp => ClearCache(m)
    case KeysOp => Keys(m).0
    case ValuesOp => Values(m).0
    case EntriesOp => Entries(m).0
  }

  /** The map after a sequence of operations. */
  function Run<K, V>(m: StringMap<K, V>, id: K -> string, ops: seq<Op<K, V>>): (r: StringMap<K, V>)
    requires WellFormed(m.store)
    ensures WellFormed(r.store)
    decreases |ops|
  {
    if ops == [] then m else Apply(Run(m, id, ops[..|ops| - 1]), id, ops[|ops| - 1])
  }

  /** No sequence of `set`, `delete`, `clear`, `clearCache` and view reads
      can make the counter drift from the number of live identities or leave
      a stale view behind. */
  lemma {:induction false} RunKeepsValid<K, V>(m: StringMap<K, V>, id: K -> string, ops: seq<Op<K, V>>)
    requires Valid(m)
    ensures Valid(Run(m, id, ops))
    decreases |ops|
  {
    if ops != [] {
      RunKeepsValid(m, id, ops[..|ops| - 1]);
    }
  }

  /** A scenario with string keys: set "A", read the keys (filling the
      cache), delete "A", set "B": the keys read afterwards are ["B"], not
      the stale ["A"]. */
  lemma KeysAreNeverStale()
    ensures var id := (k: string) => k;
      var m1 := Set(New<string, int>(), id, "A", 1);
      var m2 := Keys(m1).0;
      var m3 := Set(Delete(m2, id, "A").0, id, "B", 2);
      Keys(m1).1 == ["A"] && Keys(m3).1 == ["B"] && Size(m3) == 1
  {
    var id := (k: string) => k;
    var m0 := New<string, int>();
    SetIntoEmpty(m0, id, "A", 1);
    var m1 := Set(m0, id, "A", 1);
    var m2 := Keys(m1).0;
    SoleKeyDeleted(m2, id, "A");
    var m2d := Delete(m2, id, "A").0;
    SetIntoEmpty(m2d, id, "B", 2);
  }

  /** Setting a key into an empty store makes it the only key. */
  lemma SetIntoEmpty<K, V>(m: StringMap<K, V>, id: K -> string, key: K, value: V)
    requires WellFormed(m.store) && m.store.order == []
    ensures Set(m, id, key, value).store.order == [id(key)]
    ensures Keys(Set(m, id, key, value)).1 == [key]
  {
  }

  /** Deleting the only key empties the enumeration. */
  lemma SoleKeyDeleted<K, V>(m: StringMap<K, V>, id: K -> string, key: K)
    requires WellFormed(m.store) && m.store.order == [id(key)]
    ensures Delete(m, id, key).0.store.order == []
  {
    assert Without([id(key)], id(key)) == [];
  }

  /** A scenario for the constructor: for two keys with different
      identities, [[a, 1], [b, 2], [a, 3]] gives a map of size 2 whose a is
      3. */
  lemma ConstructorLastWins<K>(id: K -> string, a: K, b: K, pairs: seq<(K, int)>)
    requires id(a) != id(b) && pairs == [(a, 1), (b, 2), (a, 3)]
    ensures Size(FromPairs(id, pairs)) == 2
    ensures Get(FromPairs(id, pairs), id, a) == Some(3)
    ensures Get(FromPairs(id, pairs), id, b) == Some(2)
  {
    var m := FromPairs(id, pairs);
    ConstructorKeys(id, a, b, pairs);
    assert |m.store.data| == |{id(a), id(b)}| == 2;
    ConstructorValues(id, a, b, pairs);
  }

  lemma ConstructorValues<K>(id: K -> string, a: K, b: K, pairs: seq<(K, int)>)
    requires id(a) != id(b) && pairs == [(a, 1), (b, 2), (a, 3)]
    ensures var m := FromPairs(id, pairs);
      id(a) in m.store.data && id(b) in m.store.data
      && m.store.data[id(a)] == (a, 3) && m.store.data[id(b)] == (b, 2)
  {
    assert LastWith(id, pairs, 2) && LastWith(id, pairs, 1);
  }

  lemma ConstructorKeys<K>(id: K -> string, a: K, b: K, pairs: seq<(K, int)>)
    requires id(a) != id(b) && pairs == [(a, 1), (b, 2), (a, 3)]
    ensures FromPairs(id, pairs).store.data.Keys == {id(a), id(b)}
  {
    var keys := FromPairs(id, pairs).store.data.Keys;
    forall sk | sk in keys ensures sk == id(a) || sk == id(b) {
      var i := KeyWitness(id, pairs, sk);
      assert i == 0 || i == 1 || i == 2;
    }
    assert id(pairs[0].0) == id(a) && id(pairs[1].0) == id(b);
    TwoElements(keys, id(a), id(b));
  }

  lemma TwoElements(s: set<string>, x: string, y: string)
    requires x in s && y in s && forall z :: z in s ==> z == x || z == y
    ensures s == {x, y}
  {
  }
}

=== FILE: string_set.dfy ===
/** StringSet<T>: a set whose elements are arbitrary objects identified by
    their string form. The identity function (`value.toString()` in the
    source) is a parameter `id`; the backing object maps each identity to
    the element last stored under it. The `_size` counter is maintained
    incrementally, and the `values`/`entries` views are built lazily and
    dropped by every mutation. */
module StringSets {
  import opened Wrappers
  import opened ObjectStore
  import Traversal

  datatype StringSet<T> = StringSet(
    store: Dict<T>,
    size: int,
    valuesCache: Option<seq<T>>,
    entriesCache: Option<seq<(T, T)>>)

  /** The elements of the store, in enumeration order. */
  function ValuesView<T>(s: StringSet<T>): (vs: seq<T>)
    requires WellFormed(s.store)
    ensures |vs| == |s.store.order|
    ensures forall i :: 0 <= i < |vs| ==> vs[i] == s.store.data[s.store.order[i]]
  {
    Vals(s.store)
  }

  /** Each element paired with itself, in enumeration order. */
  function EntriesView<T>(s: StringSet<T>): (es: seq<(T, T)>)
    requires WellFormed(s.store)
    ensures |es| == |ValuesView(s)|
    ensures forall i :: 0 <= i < |es| ==> es[i] == (ValuesView(s)[i], ValuesView(s)[i])
  {
    var vs := ValuesView(s);
    seq(|vs|, i requires 0 <= i < |vs| => (vs[i], vs[i]))
  }

  /** Every cache that is present equals the view derived from the store. */
  ghost predicate CachesFresh<T>(s: StringSet<T>)
    requires WellFormed(s.store)
  {
    && (s.valuesCache.Some? ==> s.valuesCache.value == ValuesView(s))
    && (s.entriesCache.Some? ==> s.entriesCache.value == EntriesView(s))
  }

  /** The representation invariant: the counter equals the number of live
      identities and no cache is stale. */
  ghost predicate Valid<T>(s: StringSet<T>)
  {
    WellFormed(s.store) && s.size == |s.store.data| && CachesFresh(s)
  }

  ghost predicate NoCaches<T>(s: StringSet<T>)
  {
    s.valuesCache.None? && s.entriesCache.None?
  }

  /** `clearCache()`: both views are dropped, nothing else changes. */
  function ClearCache<T>(s: StringSet<T>): (r: StringSet<T>)
    ensures NoCaches(r)
    ensures r.store == s.store && r.size == s.size
    ensures WellFormed(s.store) && s.size == |s.store.data| ==> Valid(r)
  {
    s.(valuesCache := None, entriesCache := None)
  }

  /** `new StringSet()`. */
  function New<T>(): (s: StringSet<T>)
    ensures Valid(s) && NoCaches(s)
    ensures s.size == 0 && s.store.data == map[]
  {
    StringSet(Empty(), 0, None, None)
  }

  /** The input values tagged with their identity. */
  function Tagged<T>(id: T -> string, values: seq<T>): (ps: seq<(string, T)>)
    ensures |ps| == |values|
    ensures forall i :: 0 <= i < |ps| ==> ps[i] == (id(values[i]), values[i])
  {
    seq(|values|, i requires 0 <= i < |values| => (id(values[i]), values[i]))
  }

  /** No later value has the same identity as `values[i]`. */
  ghost predicate LastWith<T>(id: T -> string, values: seq<T>, i: int)
    requires 0 <= i < |values|
  {
    forall j :: i < j < |values| ==> id(values[j]) != id(values[i])
  }

  lemma TaggedIds<T>(id: T -> string, values: seq<T>)
    ensures forall sk :: sk in Ids(Tagged(id, values)) <==> exists i :: 0 <= i < |values| && id(values[i]) == sk
  {
    var ps := Tagged(id, values);
    forall sk | sk in Ids(ps) ensures exists i :: 0 <= i < |values| && id(values[i]) == sk {
      var i := IdsWitness(ps, sk);
      assert id(values[i]) == sk;
    }
  }

  lemma TaggedLast<T>(id: T -> string, values: seq<T>, data: map<string, T>)
    requires data == Overlay(Empty(), 0, Tagged(id, values)).0.data
    ensures forall i :: 0 <= i < |values| && LastWith(id, values, i) ==> data[id(values[i])] == values[i]
  {
    var ps := Tagged(id, values);
    OverlayLastWins(Empty(), 0, ps);
    forall i | 0 <= i < |values| && LastWith(id, values, i)
      ensures data[id(values[i])] == values[i]
    {
      forall j | i < j < |ps| ensures ps[j].0 != ps[i].0 {
        assert ps[j].0 == id(values[j]);
      }
      assert LastFor(ps, i);
    }
  }

  /** `new StringSet(arraylike)`: the values are stored one by one, the last
      value with a given identity wins, and the counter ends up as the number
      of distinct identities (part of Valid). Passing no array behaves as
      the empty one. */
  function FromValues<T>(id: T -> string, values: seq<T>): (s: StringSet<T>)
    ensures Valid(s) && NoCaches(s)
    ensures forall sk :: sk in s.store.data <==> exists i :: 0 <= i < |values| && id(values[i]) == sk
    ensures forall i :: 0 <= i < |values| && LastWith(id, values, i) ==> s.store.data[id(values[i])] == values[i]
    ensures s.store.order == Appended([], Names(Tagged(id, values)))
  {
    var ps := Tagged(id, values);
    var r := Overlay(Empty(), 0, ps);
    OverlayOrder(Empty(), 0, ps);
    TaggedIds(id, values);
    TaggedLast(id, values, r.0.data);
    StringSet(r.0, r.1, None, None)
  }

  /** `has(value)`: presence by identity. */
  predicate Has<T>(s: StringSet<T>, id: T -> string, value: T)
    ensures WellFormed(s.store) ==> (Has(s, id, value) <==> id(value) in s.store.order)
  {
    HasOwn(s.store, id(value))
  }

  /** `add(value)`: stores the value under its identity, replacing an
      element with the same identity, counts it only when the identity was
      absent, drops both caches and returns the (updated) set itself. */
  function Add<T>(s: StringSet<T>, id: T -> string, value: T): (r: StringSet<T>)
    ensures Has(r, id, value) && r.store.data[id(value)] == value
    ensures forall sk :: sk != id(value) ==> Lookup(r.store, sk) == Lookup(s.store, sk)
    ensures r.size == if Has(s, id, value) then s.size else s.size + 1
    ensures NoCaches(r)
    ensures Valid(s) ==> Valid(r)
  {
    var sk := id(value);
    var size := if !HasOwn(s.store, sk) then s.size + 1 else s.size;
    ClearCache(StringSet(Assign(s.store, sk, value), size, s.valuesCache, s.entriesCache))
  }

  /** `clear()`: guarded by the counter, not by the store. */
  function Clear<T>(s: StringSet<T>): (r: StringSet<T>)
    ensures s.size > 0 ==> r.store.data == map[] && r.size == 0 && NoCaches(r)
    ensures s.size <= 0 ==> r == s
    ensures Valid(s) ==> Valid(r) && |r.store.data| == 0
  {
    if s.size > 0 then ClearCache(s.(store := Empty(), size := 0)) else s
  }

  /** `delete(value)`: true iff the identity was present, in which case the
      element is removed, the caches dropped and the counter decremented; on
      false nothing changes. */
  function Delete<T>(s: StringSet<T>, id: T -> string, value: T): (r: (StringSet<T>, bool))
    ensures r.1 <==> Has(s, id, value)
    ensures r.1 ==> !Has(r.0, id, value) && r.0.size == s.size - 1 && NoCaches(r.0)
    ensures r.1 ==> forall sk :: sk != id(value) ==> Lookup(r.0.store, sk) == Lookup(s.store, sk)
    ensures !r.1 ==> r.0 == s
    ensures Valid(s) ==> Valid(r.0)
  {
    var sk := id(value);
    if HasOwn(s.store, sk) then
      (ClearCache(s.(store := Remove(s.store, sk))).(size := s.size - 1), true)
    else
      (s, false)
  }

  /** `values()`: the cached view when present, else the view materialised
      from the store and kept in the cache. */
  function Values<T>(s: StringSet<T>): (r: (StringSet<T>, seq<T>))
    requires WellFormed(s.store)
    ensures s.valuesCache.Some? ==> r.1 == s.valuesCache.value
    ensures r.0 == s.(valuesCache := Some(r.1))
    ensures s.valuesCache.None? ==> r.1 == ValuesView(s)
    ensures CachesFresh(s) ==> r.1 == ValuesView(s)
    ensures Valid(s) ==> Valid(r.0)
  {
    match s.valuesCache
    case Some(vs) => (s, vs)
    case None =>
      var vs := ValuesView(s);
      (s.(valuesCache := Some(vs)), vs)
  }

  /** `entries()`, cached like `values()`. */
  function Entries<T>(s: StringSet<T>): (r: (StringSet<T>, seq<(T, T)>))
    requires WellFormed(s.store)
    ensures s.entriesCache.Some? ==> r.1 == s.entriesCache.value
    ensures r.0 == s.(entriesCache := Some(r.1))
    ensures s.entriesCache.None? ==> r.1 == EntriesView(s)
    ensures CachesFresh(s) ==> r.1 == EntriesView(s)
    ensures Valid(s) ==> Valid(r.0)
  {
    match s.entriesCache
    case Some(es) => (s, es)
    case None =>
      var es := EntriesView(s);
      (s.(entriesCache := Some(es)), es)
  }

  /** The `size` getter. */
  function Size<T>(s: StringSet<T>): (n: int)
    ensures Valid(s) ==> n == |s.store.data|
  {
    s.size
  }

  /** The callback of `reduce`, which receives each element as both value
      and key. */
  function Visit<T, A>(f: (A, T, T) -> A): (A, T) -> A
  {
    (acc: A, v: T) => f(acc, v, v)
  }

  /** `reduce(callback, initialValue)`: `acc = callback(acc, value, value)`
      for each element in enumeration order. */
  function Reduce<T, A>(s: StringSet<T>, f: (A, T, T) -> A, init: A): (r: A)
    requires WellFormed(s.store)
    ensures s.store.order == [] ==> r == init
    ensures s.store.order != [] ==>
      var first := s.store.data[s.store.order[0]];
      r == Traversal.Fold(ValuesView(s)[1..], Visit(f), f(init, first, first))
  {
    Traversal.Fold(ValuesView(s), Visit(f), init)
  }

  /** Reducing with a counting callback gives the number of live
      identities, which on a valid set is its size. */
  lemma ReduceCountsSize<T>(s: StringSet<T>, count: (int, T, T) -> int)
    requires WellFormed(s.store)
    requires forall n, v, k :: count(n, v, k) == n + 1
    ensures Reduce(s, count, 0) == |s.store.data|
    ensures Valid(s) ==> Reduce(s, count, 0) == Size(s)
  {
    forall n: int, v: T ensures Visit(count)(n, v) == n + 1 {
      assert Visit(count)(n, v) == count(n, v, v);
    }
    Traversal.FoldCounts(ValuesView(s), Visit(count));
    CountIsLength(s.store);
  }

  /** Adding a new element makes it the last one `reduce` visits. */
  lemma ReduceAfterAddNew<T, A>(s: StringSet<T>, id: T -> string, value: T, f: (A, T, T) -> A, init: A)
    requires WellFormed(s.store) && !Has(s, id, value)
    ensures WellFormed(Add(s, id, value).store)
    ensures Reduce(Add(s, id, value), f, init) == f(Reduce(s, f, init), value, value)
  {
    ValsAssignNew(s.store, id(value), value);
    Traversal.FoldSnoc(ValuesView(s), value, Visit(f), init);
  }

  /** `map(callback)`: a new set whose element under each identity is the
      callback's result for the element stored there. The result stays under
      the OLD identity, whatever the identity of the new element; the counter
      is copied from the receiver. */
  function Map<T>(s: StringSet<T>, f: (T, T) -> T): (r: StringSet<T>)
    requires WellFormed(s.store)
    ensures r.store.order == s.store.order
    ensures forall sk :: sk in r.store.data <==> sk in s.store.data
    ensures forall sk :: sk in r.store.data ==> r.store.data[sk] == f(s.store.data[sk], s.store.data[sk])
    ensures r.size == s.size && NoCaches(r)
    ensures Valid(s) ==> Valid(r)
  {
    var d := Transform(s.store, |s.store.order|, (sk: string, v: T) => f(v, v));
    assert s.store.order[..|s.store.order|] == s.store.order;
    StringSet(d, s.size, None, None)
  }

  /** Because `map` keeps the old identities, `has` of a mapped element can
      be false: mapping {a} by a callback that returns b, where b has another
      identity, gives a set that holds b but does not `has` it. */
  lemma MapCanOrphanValues<T>(id: T -> string, a: T, b: T)
    requires id(a) != id(b)
    ensures var r := Map(FromValues(id, [a]), (v: T, k: T) => b);
      ValuesView(r) == [b] && !Has(r, id, b)
  {
    var s := FromValues(id, [a]);
    assert id([a][0]) == id(a);
    assert s.store.data.Keys == {id(a)};
    CountIsLength(s.store);
    assert s.store.order == [id(a)];
  }

  /** The elements the callback accepts, copied into a new object. */
  function Kept<T>(s: StringSet<T>, p: (T, T) -> bool): (r: (Dict<T>, int))
    requires WellFormed(s.store)
    ensures WellFormed(r.0) && r.1 == |r.0.data|
    ensures forall sk :: sk in r.0.data <==> sk in s.store.data && p(s.store.data[sk], s.store.data[sk])
    ensures forall sk :: sk in r.0.data ==> r.0.data[sk] == s.store.data[sk]
    ensures r.0.order == Restrict(s.store.order, r.0.data.Keys)
  {
    assert s.store.order[..|s.store.order|] == s.store.order;
    var keep := (sk: string, v: T) => p(v, v);
    SelectOrder(s.store, |s.store.order|, keep);
    Select(s.store, |s.store.order|, keep)
  }

  /** `filter(callback)`, as written: the accepted elements are copied into
      a new set, but the count of accepted elements is stored into the
      RECEIVER's counter, and the new set's counter stays 0. The result is
      the pair (receiver afterwards, new set). */
  function Filter<T>(s: StringSet<T>, p: (T, T) -> bool): (r: (StringSet<T>, StringSet<T>))
    requires WellFormed(s.store)
    ensures r.0.store == s.store && r.0.size == |r.1.store.data|
    ensures r.0.valuesCache == s.valuesCache && r.0.entriesCache == s.entriesCache
    ensures WellFormed(r.1.store) && r.1.size == 0 && NoCaches(r.1)
    ensures forall sk :: sk in r.1.store.data <==> sk in s.store.data && p(s.store.data[sk], s.store.data[sk])
    ensures forall sk :: sk in r.1.store.data ==> r.1.store.data[sk] == s.store.data[sk]
    ensures r.1.store.order == Restrict(s.store.order, r.1.store.data.Keys)
  {
    var kept := Kept(s, p);
    (s.(size := kept.1), StringSet(kept.0, 0, None, None))
  }

  /** Filtering as written leaves a non-empty result with a counter of 0. */
  lemma FilterResultMiscounts<T>(s: StringSet<T>, p: (T, T) -> bool)
    requires WellFormed(s.store)
    ensures |Filter(s, p).1.store.data| > 0 ==> !Valid(Filter(s, p).1)
  {
  }

  /** Filtering a valid set as written leaves the receiver valid only if the
      callback accepted every element. */
  lemma FilterReceiverMiscounts<T>(s: StringSet<T>, p: (T, T) -> bool)
    requires Valid(s)
    ensures Valid(Filter(s, p).0) <==> forall sk :: sk in s.store.data ==> p(s.store.data[sk], s.store.data[sk])
  {
    var keep := (sk: string, v: T) => p(v, v);
    SelectKeys(s.store, keep);
    AcceptedAll(s.store, keep);
  }

  /** A concrete instance: filtering the valid set {1, 2} (identities "1"
      and "2") for elements above 1, as written, gives a set that holds 2 but
      reports size 0, and sets the receiver's size to 1 although it still
      holds both elements. */
  lemma FilterCounterexample()
    ensures var s := StringSet(Dict(map["1" := 1, "2" := 2], ["1", "2"]), 2, None, None);
      var r := Filter(s, (v: int, k: int) => v > 1);
      Valid(s) && r.1.store.data.Keys == {"2"} && Size(r.1) == 0
      && Size(r.0) == 1 && |r.0.store.data| == 2
  {
    var s := StringSet(Dict(map["1" := 1, "2" := 2], ["1", "2"]), 2, None, None);
    assert Elems(s.store.order) == {"1", "2"};
    assert |s.store.data| == |s.store.data.Keys| == |{"1", "2"}| == 2;
    var r := Filter(s, (v: int, k: int) => v > 1);
    FilterKeysTwo(s, (v: int, k: int) => v > 1);
    assert r.0.size == |r.1.store.data.Keys| == |{"2"}| == 1;
  }

  lemma FilterKeysTwo(s: StringSet<int>, p: (int, int) -> bool)
    requires s.store == Dict(map["1" := 1, "2" := 2], ["1", "2"]) && WellFormed(s.store)
    requires !p(1, 1) && p(2, 2)
    ensures Filter(s, p).1.store.data.Keys == {"2"}
  {
    var r := Filter(s, p);
    assert "1" !in r.1.store.data && "2" in r.1.store.data;
  }

  /** The evidently intended `filter`: the new set's counter is the number
      of accepted elements and the receiver is left unchanged. */
  function FilterIntended<T>(s: StringSet<T>, p: (T, T) -> bool): (r: StringSet<T>)
    requires WellFormed(s.store)
    ensures Valid(r) && NoCaches(r)
    ensures forall sk :: sk in r.store.data <==> sk in s.store.data && p(s.store.data[sk], s.store.data[sk])
    ensures forall sk :: sk in r.store.data ==> r.store.data[sk] == s.store.data[sk]
    ensures r.store.order == Restrict(s.store.order, r.store.data.Keys)
  {
    var kept := Kept(s, p);
    StringSet(kept.0, kept.1, None, None)
  }

  /** The values view visits exactly the live elements. */
  lemma ValuePositions<T>(s: StringSet<T>)
    requires WellFormed(s.store)
    ensures forall i :: 0 <= i < |ValuesView(s)| ==>
      s.store.order[i] in s.store.data && ValuesView(s)[i] == s.store.data[s.store.order[i]]
    ensures forall sk :: sk in s.store.data ==> exists i :: 0 <= i < |s.store.order| && s.store.order[i] == sk
  {
    forall i | 0 <= i < |ValuesView(s)| ensures s.store.order[i] in s.store.data {
      assert s.store.order[i] in Elems(s.store.order);
    }
    forall sk | sk in s.store.data ensures exists i :: 0 <= i < |s.store.order| && s.store.order[i] == sk {
      var i := PositionOf(s.store, sk);
    }
  }

  /** `every(callback)`: true iff the callback accepts every element. */
  function Every<T>(s: StringSet<T>, p: (T, T) -> bool): (r: bool)
    requires WellFormed(s.store)
    ensures r <==> forall sk :: sk in s.store.data ==> p(s.store.data[sk], s.store.data[sk])
  {
    var r := Traversal.Every(ValuesView(s), (v: T) => p(v, v));
    ValuePositions(s);
    r
  }

  /** `some(callback)`: true iff the callback accepts some element. */
  function Any<T>(s: StringSet<T>, p: (T, T) -> bool): (r: bool)
    requires WellFormed(s.store)
    ensures r <==> exists sk :: sk in s.store.data && p(s.store.data[sk], s.store.data[sk])
  {
    var r := Traversal.Any(ValuesView(s), (v: T) => p(v, v));
    ValuePositions(s);
    r
  }

  /** The stores of a sequence of sets. */
  function Stores<T>(sets: seq<StringSet<T>>): (ds: seq<Dict<T>>)
    ensures |ds| == |sets|
    ensures forall i :: 0 <= i < |ds| ==> ds[i] == sets[i].store
  {
    seq(|sets|, i requires 0 <= i < |sets| => sets[i].store)
  }

  /** Every set of the sequence has a well-formed store. */
  ghost predicate AllSetsWellFormed<T>(sets: seq<StringSet<T>>)
  {
    forall i :: 0 <= i < |sets| ==> WellFormed(sets[i].store)
  }

  /** `concat(...sets)`: a new set holding the receiver's elements and then
      each argument's elements whose identity is still missing, so that the
      FIRST element with an identity wins. The counter starts from the
      receiver's and counts each added identity, so it is off by exactly as
      much as the receiver's. */
  function Concat<T>(s: StringSet<T>, sets: seq<StringSet<T>>): (r: StringSet<T>)
    requires WellFormed(s.store) && AllSetsWellFormed(sets)
    ensures r.store.data == FirstWinsUnion(s.store.data, Stores(sets))
    ensures r.size - |r.store.data| == s.size - |s.store.data|
    ensures WellFormed(r.store) && NoCaches(r)
    ensures Valid(s) ==> Valid(r)
    ensures r.store.order == Appended(s.store.order, AllNames(Stores(sets)))
  {
    var acc := UnderlayAll(Copy(s.store), s.size, Stores(sets));
    UnderlayAllOrder(Copy(s.store), s.size, Stores(sets));
    StringSet(acc.0, acc.1, None, None)
  }

  /** `union(...sets)`: like `concat`, but each argument's element
      overwrites, so that the LAST element with an identity wins. */
  function Union<T>(s: StringSet<T>, sets: seq<StringSet<T>>): (r: StringSet<T>)
    requires WellFormed(s.store) && AllSetsWellFormed(sets)
    ensures r.store.data == LastWinsUnion(s.store.data, Stores(sets))
    ensures r.size - |r.store.data| == s.size - |s.store.data|
    ensures WellFormed(r.store) && NoCaches(r)
    ensures Valid(s) ==> Valid(r)
    ensures r.store.order == Appended(s.store.order, AllNames(Stores(sets)))
  {
    var acc := OverlayAll(Copy(s.store), s.size, Stores(sets));
    OverlayAllOrder(Copy(s.store), s.size, Stores(sets));
    StringSet(acc.0, acc.1, None, None)
  }

  /** A value is in the union iff the receiver or some argument has its
      identity. */
  lemma UnionHas<T>(s: StringSet<T>, sets: seq<StringSet<T>>, id: T -> string, value: T)
    requires WellFormed(s.store) && AllSetsWellFormed(sets)
    ensures Has(Union(s, sets), id, value) <==> Has(s, id, value) || exists i :: 0 <= i < |sets| && Has(sets[i], id, value)
  {
    var r := Union(s, sets);
    assert Has(r, id, value) <==> id(value) in r.store.data;
    UnionKeys(s.store.data, Stores(sets), id(value));
    SomeHas(sets, id, value);
  }

  lemma SomeHas<T>(sets: seq<StringSet<T>>, id: T -> string, value: T)
    ensures (exists i :: 0 <= i < |sets| && Has(sets[i], id, value))
        <==> exists i :: 0 <= i < |Stores(sets)| && id(value) in Stores(sets)[i].data
  {
    if exists i :: 0 <= i < |Stores(sets)| && id(value) in Stores(sets)[i].data {
      var i :| 0 <= i < |Stores(sets)| && id(value) in Stores(sets)[i].data;
      assert Has(sets[i], id, value);
    }
    if exists i :: 0 <= i < |sets| && Has(sets[i], id, value) {
      var i :| 0 <= i < |sets| && Has(sets[i], id, value);
      assert id(value) in Stores(sets)[i].data;
    }
  }

  /** `concat` holds the same identities as `union`. */
  lemma ConcatHas<T>(s: StringSet<T>, sets: seq<StringSet<T>>, id: T -> string, value: T)
    requires WellFormed(s.store) && AllSetsWellFormed(sets)
    ensures Has(Concat(s, sets), id, value) <==> Has(s, id, value) || exists i :: 0 <= i < |sets| && Has(sets[i], id, value)
  {
    var r := Concat(s, sets);
    assert Has(r, id, value) <==> id(value) in r.store.data;
    UnionKeys(s.store.data, Stores(sets), id(value));
    SomeHas(sets, id, value);
  }

  /** Where `concat` and `union` differ: for two elements a and b with the
      same identity, {a}.concat({b}) keeps a while {a}.union({b}) keeps b. */
  lemma ConcatKeepsFirstUnionKeepsLast<T>(id: T -> string, a: T, b: T)
    requires id(a) == id(b)
    ensures var s := FromValues(id, [a]);
      var t := FromValues(id, [b]);
      Concat(s, [t]).store.data[id(a)] == a && Union(s, [t]).store.data[id(a)] == b
  {
    var s := FromValues(id, [a]);
    var t := FromValues(id, [b]);
    assert LastWith(id, [a], 0) && LastWith(id, [b], 0);
    assert id([a][0]) == id(a) && id([b][0]) == id(b);
    FirstWinsUnionKeeps(s.store.data, Stores([t]), id(a));
    LastWinsUnionValue(s.store.data, Stores([t]), id(a), 0);
  }

  /** Uniting in two steps is uniting once. */
  lemma UnionTwice<T>(s: StringSet<T>, a: StringSet<T>, b: StringSet<T>)
    requires WellFormed(s.store) && WellFormed(a.store) && WellFormed(b.store)
    ensures Union(Union(s, [a]), [b]).store.data == Union(s, [a, b]).store.data
    ensures Union(Union(s, [a]), [b]).size == Union(s, [a, b]).size
  {
    assert Stores([a, b])[..1] == Stores([a]);
  }

  /** Concatenating in two steps is concatenating once. */
  lemma ConcatTwice<T>(s: StringSet<T>, a: StringSet<T>, b: StringSet<T>)
    requires WellFormed(s.store) && WellFormed(a.store) && WellFormed(b.store)
    ensures Concat(Concat(s, [a]), [b]).store.data == Concat(s, [a, b]).store.data
    ensures Concat(Concat(s, [a]), [b]).size == Concat(s, [a, b]).size
  {
    assert Stores([a, b])[..1] == Stores([a]);
  }

  /** The object selected by `intersection`: each identity of the receiver
      that every argument has. */
  function Common<T>(s: StringSet<T>, sets: seq<StringSet<T>>): (r: (Dict<T>, int))
    requires WellFormed(s.store)
    ensures WellFormed(r.0) && r.1 == |r.0.data|
    ensures forall sk :: sk in r.0.data <==> sk in s.store.data && forall i :: 0 <= i < |sets| ==> sk in sets[i].store.data
    ensures forall sk :: sk in r.0.data ==> r.0.data[sk] == s.store.data[sk]
    ensures r.0.order == Restrict(s.store.order, r.0.data.Keys)
  {
    var ds := Stores(sets);
    assert s.store.order[..|s.store.order|] == s.store.order;
    var keep := (sk: string, v: T) => InAll(sk, ds);
    var r := Select(s.store, |s.store.order|, keep);
    SelectOrder(s.store, |s.store.order|, keep);
    forall sk ensures InAll(sk, ds) <==> forall i :: 0 <= i < |sets| ==> sk in sets[i].store.data {
      InAllMeans(sk, ds);
    }
    r
  }

  /** `intersection(...sets)`: a new set of the receiver's elements whose
      identity every argument has, counted as they are copied. With no
      argument every element is kept. */
  function Intersection<T>(s: StringSet<T>, sets: seq<StringSet<T>>): (r: StringSet<T>)
    requires WellFormed(s.store)
    ensures Valid(r) && NoCaches(r)
    ensures forall sk :: sk in r.store.data <==> sk in s.store.data && forall i :: 0 <= i < |sets| ==> sk in sets[i].store.data
    ensures forall sk :: sk in r.store.data ==> r.store.data[sk] == s.store.data[sk]
    ensures r.store.order == Restrict(s.store.order, r.store.data.Keys)
  {
    var c := Common(s, sets);
    StringSet(c.0, c.1, None, None)
  }

  /** The object selected by `complement`: each identity of the receiver
      that no argument has. */
  function Unshared<T>(s: StringSet<T>, sets: seq<StringSet<T>>): (r: (Dict<T>, int))
    requires WellFormed(s.store)
    ensures WellFormed(r.0) && r.1 == |r.0.data|
    ensures forall sk :: sk in r.0.data <==> sk in s.store.data && forall i :: 0 <= i < |sets| ==> sk !in sets[i].store.data
    ensures forall sk :: sk in r.0.data ==> r.0.data[sk] == s.store.data[sk]
    ensures r.0.order == Restrict(s.store.order, r.0.data.Keys)
  {
    var ds := Stores(sets);
    assert s.store.order[..|s.store.order|] == s.store.order;
    var keep := (sk: string, v: T) => !InSome(sk, ds);
    var r := Select(s.store, |s.store.order|, keep);
    SelectOrder(s.store, |s.store.order|, keep);
    forall sk ensures !InSome(sk, ds) <==> forall i :: 0 <= i < |sets| ==> sk !in sets[i].store.data {
      InSomeMeans(sk, ds);
    }
    r
  }

  /** `complement(...sets)`: a new set of the receiver's elements whose
      identity no argument has, counted as they are copied. */
  function Complement<T>(s: StringSet<T>, sets: seq<StringSet<T>>): (r: StringSet<T>)
    requires WellFormed(s.store)
    ensures Valid(r) && NoCaches(r)
    ensures forall sk :: sk in r.store.data <==> sk in s.store.data && forall i :: 0 <= i < |sets| ==> sk !in sets[i].store.data
    ensures forall sk :: sk in r.store.data ==> r.store.data[sk] == s.store.data[sk]
    ensures r.store.order == Restrict(s.store.order, r.store.data.Keys)
  {
    var c := Unshared(s, sets);
    StringSet(c.0, c.1, None, None)
  }

  /** Set algebra by identity: `intersection` and `complement` against the
      same argument split the receiver's elements between them. */
  lemma IntersectionComplementSplit<T>(s: StringSet<T>, t: StringSet<T>, id: T -> string, value: T)
    requires WellFormed(s.store)
    ensures Has(s, id, value) <==> Has(Intersection(s, [t]), id, value) || Has(Complement(s, [t]), id, value)
    ensures !(Has(Intersection(s, [t]), id, value) && Has(Complement(s, [t]), id, value))
    ensures Has(Intersection(s, [t]), id, value) <==> Has(s, id, value) && Has(t, id, value)
  {
    IntersectionComplementKeys(s, t);
  }

  /** On valid sets the sizes of `intersection` and `complement` against
      the same argument add up to the receiver's size. */
  lemma IntersectionComplementSizes<T>(s: StringSet<T>, t: StringSet<T>)
    requires Valid(s)
    ensures Size(Intersection(s, [t])) + Size(Complement(s, [t])) == Size(s)
  {
    IntersectionComplementKeys(s, t);
    var a := Intersection(s, [t]).store.data.Keys;
    var b := Complement(s, [t]).store.data.Keys;
    assert |a + b| == |a| + |b|;
  }

  lemma IntersectionComplementKeys<T>(s: StringSet<T>, t: StringSet<T>)
    requires WellFormed(s.store)
    ensures Intersection(s, [t]).store.data.Keys + Complement(s, [t]).store.data.Keys == s.store.data.Keys
    ensures Intersection(s, [t]).store.data.Keys * Complement(s, [t]).store.data.Keys == {}
  {
    var a := Intersection(s, [t]).store.data.Keys;
    var b := Complement(s, [t]).store.data.Keys;
    forall sk ensures (sk in a <==> sk in s.store.data && sk in t.store.data) && (sk in b <==> sk in s.store.data && sk !in t.store.data) {
      assert [t][0] == t;
    }
    Partition(a, b, s.store.data.Keys);
  }

  lemma Partition(a: set<string>, b: set<string>, c: set<string>)
    requires forall x :: x in c <==> x in a || x in b
    requires forall x :: !(x in a && x in b)
    ensures a + b == c && a * b == {}
  {
  }

  /** On a valid set both views have `size` elements. */
  lemma ViewsHaveSize<T>(s: StringSet<T>)
    requires Valid(s)
    ensures |ValuesView(s)| == |EntriesView(s)| == Size(s)
  {
    CountIsLength(s.store);
  }

  /** A second `values()` returns the cached array and changes nothing. */
  lemma ValuesIsCached<T>(s: StringSet<T>)
    requires WellFormed(s.store)
    ensures Values(Values(s).0) == Values(s)
  {
  }

  /** Adding an element whose identity was absent and then deleting it
      restores the store, enumeration order included, and the counter; only
      the caches are gone. */
  lemma {:induction false} DeleteUndoesAdd<T>(s: StringSet<T>, id: T -> string, value: T)
    requires WellFormed(s.store) && !Has(s, id, value)
    ensures Delete(Add(s, id, value), id, value) == (ClearCache(s), true)
  {
    RemoveUndoesAssign(s.store, id(value), value);
  }

  /** Adding the same element twice is adding it once. */
  lemma AddTwice<T>(s: StringSet<T>, id: T -> string, value: T)
    ensures Add(Add(s, id, value), id, value) == Add(s, id, value)
  {
  }

  /** The operations that mutate a set in place or read one of its views. */
  datatype Op<T> =
    | AddOp(value: T)
    | DeleteOp(value: T)
    | ClearOp
    | ClearCacheOp
    | ValuesOp
    | EntriesOp

  /** The set after one operation. */
  function Apply<T>(s: StringSet<T>, id: T -> string, op: Op<T>): (r: StringSet<T>)
    requires WellFormed(s.store)
    ensures WellFormed(r.store)
    ensures Valid(s) ==> Valid(r)
  {
    match op
    case AddOp(value) => Add(s, id, value)
    case DeleteOp(value) => Delete(s, id, value).0
    case ClearOp => Clear(s)
    case ClearCacheOp => ClearCache(s)
    case ValuesOp => Values(s).0
    case EntriesOp => Entries(s).0
  }

  /** The set after a sequence of operations. */
  function Run<T>(s: StringSet<T>, id: T -> string, ops: seq<Op<T>>): (r: StringSet<T>)
    requires WellFormed(s.store)
    ensures WellFormed(r.store)
    decreases |ops|
  {
    if ops == [] then s else Apply(Run(s, id, ops[..|ops| - 1]), id, ops[|ops| - 1])
  }

  /** No sequence of `add`, `delete`, `clear`, `clearCache` and view reads
      can make the counter drift from the number of live identities or leave
      a stale view behind. */
  lemma {:induction false} RunKeepsValid<T>(s: StringSet<T>, id: T -> string, ops: seq<Op<T>>)
    requires Valid(s)
    ensures Valid(Run(s, id, ops))
    decreases |ops|
  {
    if ops != [] {
      RunKeepsValid(s, id, ops[..|ops| - 1]);
    }
  }
}

=== FILE: traversal.dfy ===
/** The loop shapes shared by both collections, over the sequence a
    `for ... in` traversal visits: a left fold (`reduce`), early-exit
    universal and existential tests (`every`, `some`) and a first-match
    search (`findKey`). */
module Traversal {
  import opened Wrappers

  /** `acc = callback(acc, x)` for each visited `x`, starting from `init`.
      Defined by the last step; the contract states the loop's order from
      the front: the first element is folded into `init` first. */
  function Fold<A, T>(xs: seq<A>, f: (T, A) -> T, init: T): (r: T)
    ensures xs == [] ==> r == init
    ensures xs != [] ==> r == Fold(xs[1..], f, f(init, xs[0]))
    decreases |xs|
  {
    if xs == [] then init
    else
      var p := xs[..|xs| - 1];
      var r := f(Fold(p, f, init), xs[|xs| - 1]);
      assert p != [] ==> xs[1..][..|xs| - 2] == p[1..];
      r
  }

  /** Visiting one more element applies the callback once more to the
      accumulated value. */
  lemma FoldSnoc<A, T>(xs: seq<A>, x: A, f: (T, A) -> T, init: T)
    ensures Fold(xs + [x], f, init) == f(Fold(xs, f, init), x)
  {
    assert (xs + [x])[..|xs|] == xs;
  }

  /** A fold whose callback adds one per element counts the elements. */
  lemma {:induction false} FoldCounts<A>(xs: seq<A>, f: (int, A) -> int)
    requires forall n, x :: f(n, x) == n + 1
    ensures Fold(xs, f, 0) == |xs|
    decreases |xs|
  {
    if xs != [] {
      FoldCounts(xs[..|xs| - 1], f);
    }
  }

  /** Stops at the first element the predicate rejects. */
  function Every<A>(xs: seq<A>, p: A -> bool): (r: bool)
    ensures r <==> forall i :: 0 <= i < |xs| ==> p(xs[i])
    decreases |xs|
  {
    if xs == [] then true
    else if !p(xs[0]) then false
    else
      var r := Every(xs[1..], p);
      assert forall i :: 1 <= i < |xs| ==> xs[i] == xs[1..][i - 1];
      r
  }

  /** Stops at the first element the predicate accepts. */
  function Any<A>(xs: seq<A>, p: A -> bool): (r: bool)
    ensures r <==> exists i :: 0 <= i < |xs| && p(xs[i])
    decreases |xs|
  {
    if xs == [] then false
    else if p(xs[0]) then true
    else
      var r := Any(xs[1..], p);
      assert forall i :: 1 <= i < |xs| ==> xs[i] == xs[1..][i - 1];
      r
  }

  /** The position of the first element the predicate accepts. */
  function FindFirst<A>(xs: seq<A>, p: A -> bool): (r: Option<nat>)
    ensures r.Some? ==> r.value < |xs| && p(xs[r.value])
    ensures r.Some? ==> forall j :: 0 <= j < r.value ==> !p(xs[j])
    ensures r.None? <==> forall i :: 0 <= i < |xs| ==> !p(xs[i])
    decreases |xs|
  {
    if xs == [] then None
    else if p(xs[0]) then Some(0)
    else
      var r := FindFirst(xs[1..], p);
      assert forall i :: 1 <= i < |xs| ==> xs[i] == xs[1..][i - 1];
      match r
      case None => None
      case Some(i) => Some(i + 1)
  }
}

=== FILE: wrappers.dfy ===
/** The optional value used for JavaScript's `undefined` results and for
    the containers' lazily built views (a cache that is either absent or
    holds a materialised sequence). */
module Wrappers {

  datatype Option<+T> = None | Some(value: T)
}
